=== FILE: README.md ===
# Shopping app core in Dafny

This project models the logic of an Australian grocery-list web app (React
with a zustand store) as pure functions over immutable data, and proves
what that logic guarantees. It covers three parts:

- **Catalog search.** The add-item dropdown uses a typo-tolerant
  `fuzzyMatch`, then an optional category filter, then a stable
  "name contains the term first" sort. The shop page runs a
  substring search, a category filter and an in-stock-at-store filter, then
  sorts by name, price or popularity in either direction. The search page
  applies a name-or-category filter.
- **The store.** Every action in `src/store/index.ts` becomes an
  `AppState -> AppState` function. This covers products, lists, list items,
  the cart, favourites and sharing, plus the active-list rule of
  `deleteShoppingList`.
- **Derived views.** These are the lists page (store filter, recency order),
  the home page (favourite products, two most recent lists), the list
  detail page (purchased/unpurchased split, list handlers) and the list
  card's progress percentage.

Modules follow the program: `Types` (records), `Strings` (lower-casing,
trimming, substring search), `Seqs` (`filter`, `map`-where, `findIndex`),
`Sorting` (`Array.prototype.sort` as a stable insertion sort, as required by
section 23.1.3.30 of ECMA-262), `Fuzzy`, `Catalog` (product tests shared by
the three searches), `AddItemForm`, `ShopPage`, `SearchPage`, `AppStore`,
`ListsPage`, `HomePage`, `ListDetailPage` and `ListCard`.

Modelling choices:

- Strings are `seq<char>`, lower-cased with ASCII `Lower`. Trimming uses the
  ECMAScript whitespace set.
- Prices and quantities are integers. Dates are integer timestamps. The
  progress percentage is an exact `real`.
- TypeScript optional fields are `Option`s. A `Partial<T>` update is a patch
  datatype. In it, `Some(None)` on an optional field is an explicit
  `undefined`, which the object spread copies over the old value.
- A JavaScript comparator is a function `(T, T) -> int`. "Not after" means
  `cmp(a, b) <= 0`.
- Stability is stated as follows: for every group of mutually tied elements,
  filtering the sorted output to that group gives the same sequence as
  filtering the input.
- `localeCompare` is an abstract `collate` parameter. The name-sort
  ordering lemmas assume it is a consistent comparator in ECMA-262's sense.
- JavaScript truthiness is kept where it changes behaviour:
  - `if (activeFilterCategory)` and `if (selectedCategory)` ignore an empty
    category string;
  - `find(...)?.id || null` in `deleteShoppingList` turns an empty id into
    no active list;
  - `if (searchTerm)` on the shop page filters even for a whitespace-only
    term.
- Ids (`uuidv4()`, `p${Date.now()}`, `cart-${Date.now()}`) and the time
  (`new Date()`) are parameters.

Behaviour worth knowing, proved here:

- The fuzzy scan stops as soon as either cursor reaches the end of its
  string. So a text that is a case-insensitive prefix of the pattern always
  matches, and so does the empty text (`FuzzyMatchTextPrefixOfPattern`).
- Choosing the same category chip twice restores the previous filter only
  when the filter was off or already on that chip. From another chip, two
  clicks switch the filter off (`ToggleCategoryTwiceFromOther`).
- The price sort treats a product missing at the store in use as costing 0.

Further behaviour of the code that the model keeps:

- The dropdown and the shop page are two separate pipelines.
  - Only the dropdown is fuzzy, and it has no store filter.
  - The shop page has no fuzzy tolerance (`ShopSearchHasNoTypoTolerance`),
    and it sorts by key rather than by relevance.
- The dropdown returns nothing for a blank term.
- The fuzzy scan accepts when either cursor reaches the end of its string.
- Ascending popularity puts the least-stocked products first.

## Model

| member | source | states |
|---|---|---|
| Fuzzy.MaxDistance | src/components/shopping/AddItemForm.tsx:53 | The mismatch budget is `min(2, floor(n/3))`: 0 for patterns shorter than 3, 2 from length 6 up, never more than 2. |
| Fuzzy.ScanWithinBudget | src/components/shopping/AddItemForm.tsx:54-64 | Giving up as soon as the count passes the budget changes nothing: the scan succeeds exactly when the full greedy mismatch count fits the budget. |
| Fuzzy.FuzzyMatch | src/components/shopping/AddItemForm.tsx:45-67 | `fuzzyMatch` is true exactly when the lower-cased text contains the lower-cased pattern, or the greedy two-cursor scan meets no more mismatches than the budget. |
| Fuzzy.FuzzyMatchLoop | src/components/shopping/AddItemForm.tsx:45-67 | The cursor loop with its early `return false` gives the same verdict. Its invariant is that mismatches seen plus mismatches still ahead equal the total. |
| Fuzzy.FuzzyMatchCaseInsensitive | src/components/shopping/AddItemForm.tsx:46-47 | Lower-casing either argument first does not change the verdict. |
| Fuzzy.FuzzyMatchTextPrefixOfPattern | src/components/shopping/AddItemForm.tsx:56-66 | A text that is a case-insensitive prefix of the pattern always matches, although the rest of the pattern is never compared. |
| Fuzzy.FuzzyMatchRejectsForeignText | src/components/shopping/AddItemForm.tsx:53-63 | A text of the pattern's length made only of a character the pattern lacks is rejected: every character is a mismatch and the budget is smaller. |
| Fuzzy.FuzzyMatchToleratesTypo | src/components/shopping/AddItemForm.tsx:50-66 | "Bananas" matches "banans" with one mismatch although it is not a substring. |
| Fuzzy.FuzzyMatchMildCheese | src/components/shopping/AddItemForm.tsx:50-66 | "Mild Cheese" does not match "milk": no substring, and 2 mismatches exceed the budget of 1. |
| Strings.Trim | src/components/shopping/AddItemForm.tsx:143-147 | `trim()` returns the slice of the string between a whitespace-only prefix and a whitespace-only suffix, and the slice neither starts nor ends with whitespace. |
| Strings.BlankIffAllWhitespace | src/components/shopping/AddItemForm.tsx:39 | `term.trim() === ''` holds exactly when every character is whitespace. |
| Strings.ContainsIffOccurs | src/components/shopping/AddItemForm.tsx:50 | `includes` holds exactly when the pattern occurs at some position of the text. |
| Strings.ContainsTransitive | src/pages/SearchPage.tsx:17-18 | A substring of a substring is a substring. |
| Catalog.AllStoresComplete | src/types/index.ts:1 | Every store is one of the four: Woolworths, Coles, Aldi, IGA. |
| Catalog.StoresStocking | src/pages/ShopPage.tsx:83-84 | The stores counted for popularity are exactly those with an entry for the product that is in stock, each once and in the app's store order; there are at most four. |
| Catalog.StoresStockingCount | src/pages/ShopPage.tsx:83-84 | The number of stocking stores is the sum, over Woolworths, Coles, Aldi and IGA, of 1 when that store's entry is in stock. |
| AddItemForm.DropdownFilteredIsOneFilter | src/components/shopping/AddItemForm.tsx:69-86 | The match filter followed by the optional category filter keeps, in catalog order, exactly the products passing both tests. |
| AddItemForm.DropdownResults | src/components/shopping/AddItemForm.tsx:38-100 | A blank term gives no results. Otherwise the results are a rearrangement of the accepted products: catalog products that fuzzily match by name, or contain the untrimmed term in category, a brand or a tag, and have the active category when a filter is on. |
| AddItemForm.DropdownNameHitsFirst | src/components/shopping/AddItemForm.tsx:89-96 | Every product whose name contains the term comes before every product whose name does not. |
| AddItemForm.DropdownGroupsKeepOrder | src/components/shopping/AddItemForm.tsx:89-96 | Within the name hits, and within the misses, products keep their catalog order. |
| AddItemForm.ToggleCategoryFilter | src/components/shopping/AddItemForm.tsx:193-199 | Choosing the active chip clears the filter; choosing any other chip makes it the filter. |
| AddItemForm.ToggleCategoryTwice | src/components/shopping/AddItemForm.tsx:193-199 | Choosing a chip twice restores the filter when it was off or already on that chip. |
| AddItemForm.ToggleCategoryTwiceFromOther | src/components/shopping/AddItemForm.tsx:193-199 | With another chip active, choosing a chip twice leaves the filter off, not as it was. |
| AddItemForm.ToggleRestrictsToCategory | src/components/shopping/AddItemForm.tsx:84-86 | After a (non-empty) chip is chosen, every dropdown result has exactly that category. |
| AddItemForm.NewProduct | src/components/shopping/AddItemForm.tsx:142-157 | A blank name gives no product. Otherwise the product has the trimmed name, the chosen category, a brand only when one was typed, an in-stock zero-price offer in the chosen unit at each of the four stores, and the lower-cased category as its tag. |
| AddItemForm.NewProductFoundByItsName | src/components/shopping/AddItemForm.tsx:159-161 | Once added, the new product shows up in the dropdown for its own name (the search term the form sets), and its name is a name hit. |
| AddItemForm.SubmitItem | src/components/shopping/AddItemForm.tsx:165-179 | Without a chosen product nothing changes. Otherwise one unpurchased item with the form's id, product, quantity and unit is appended to the list, with notes equal to the typed text and absent when none was typed. The list keeps its name, store, creation time and sharing; other lists and the rest of the state are unchanged. This is the form's own write; the list page's second write is `ListDetailPage.SubmitOnPage`. |
| AddItemForm.SubmitThenRemove | src/components/shopping/AddItemForm.tsx:170-179 | Removing the item just submitted under a fresh id restores every list's items. |
| ShopPage.StoreToUse | src/pages/ShopPage.tsx:36-39 | The selected store if any, else the user's preferred store, else Woolworths. |
| ShopPage.PriceAt | src/pages/ShopPage.tsx:78-79 | The price key is the offer's price at the store, or 0 when the product has no entry there. |
| ShopPage.ShopFilteredIsOneFilter | src/pages/ShopPage.tsx:46-69 | The staged search, category and store filters keep, in catalog order, exactly the products passing all three tests; each test is skipped when its control is empty. |
| ShopPage.ShopResults | src/pages/ShopPage.tsx:42-92 | While loading the result is empty. Otherwise it is a rearrangement of exactly the catalog products the filters accept; the catalog itself is untouched. |
| ShopPage.ShopSearchIsPlainSubstring | src/pages/ShopPage.tsx:49-57 | With a non-empty term every product the page shows is a catalog product whose name, category, some brand or some tag has the lower-cased term as a plain substring. |
| ShopPage.ShopSearchHasNoTypoTolerance | src/pages/ShopPage.tsx:49-57 | The term "banans" matches a product named "Bananas" in the add-item dropdown, but the shop page does not show it: its search has no typo tolerance. |
| ShopPage.NameComparatorConsistent | src/pages/ShopPage.tsx:73-76 | The name comparator, with its arguments swapped for descending order, is consistent whenever the collation is. |
| ShopPage.ShopSortedByName | src/pages/ShopPage.tsx:72-76 | The name sort is ascending in the collation, or descending with the arguments swapped. |
| ShopPage.ShopSortedByPrice | src/pages/ShopPage.tsx:77-81 | The price sort is non-decreasing (ascending) or non-increasing (descending) in the price at the store in use. |
| ShopPage.ShopSortedByPopularity | src/pages/ShopPage.tsx:82-89 | The popularity sort is ordered by the number of stores stocking the product, in the chosen direction. |
| ShopPage.ShopNumericSortStable | src/pages/ShopPage.tsx:72-90 | Under the price and popularity sorts, products with equal keys keep their filtered catalog order. |
| ShopPage.ShopNameSortStable | src/pages/ShopPage.tsx:72-76 | Under the name sort, products whose names collate equal keep their filtered catalog order. |
| ShopPage.ToggleSortDirection | src/pages/ShopPage.tsx:130-132 | The toggle always changes the direction. |
| ShopPage.ToggleSortDirectionInvolution | src/pages/ShopPage.tsx:130-132 | Toggling the sort direction twice gives it back. |
| ShopPage.ClearFilters | src/pages/ShopPage.tsx:134-139 | Clearing resets the term to empty, the category to none, the sort to name and the direction to ascending. |
| ShopPage.ClearedShowsWholeCatalog | src/pages/ShopPage.tsx:134-144 | Once the controls are cleared and the store reset, the page shows the whole catalog, rearranged. |
| ShopPage.CartItemFor | src/pages/ShopPage.tsx:118-127 | The cart entry carries the given cart id and is one unpurchased unit of the product, without notes, in its unit at the store in use, or `each` when the store has no entry. |
| ShopPage.AddToCartFromShop | src/pages/ShopPage.tsx:118-128 | Afterwards the cart exists and holds an entry for the product. When it held none before, the new entry is appended at the end; otherwise the first entry for the product gains one unit and every other entry stays, so the length is kept. Nothing outside the cart changes. |
| ShopPage.Availability | src/pages/ShopPage.tsx:83-84 | The popularity key counts, over the four stores, those whose entry for the product is in stock; it lies in 0..4. |
| ShopPage.ShopComparator | src/pages/ShopPage.tsx:72-90 | For each option and direction, the comparator puts `a` no later than `b` exactly when `a`'s key (collated name, price at the store in use, availability) is not beyond `b`'s in that direction. |
| ShopPage.NumericComparatorsConsistent | src/pages/ShopPage.tsx:77-89 | The price and popularity comparators are consistent comparators in both directions. |
| ShopPage.AddToCartTwice | src/pages/ShopPage.tsx:118-128 | Adding a product the cart lacks twice appends a single entry, under the first id, with quantity 2. |
| SearchPage.SearchResults | src/pages/SearchPage.tsx:16-24 | The results are the catalog-order subsequence of products whose name or category contains the term and which are in stock at the selected store, if one is selected. Each accepted product appears as often as in the catalog, and no other product appears. |
| SearchPage.EmptyTermKeepsStoreFiltered | src/pages/SearchPage.tsx:17-21 | The empty term passes every product, leaving the store-filtered catalog. |
| SearchPage.NoStoreKeepsSearchFiltered | src/pages/SearchPage.tsx:20-21 | With no store selected only the search test applies. |
| SearchPage.BrandOnlyMatchExcluded | src/pages/SearchPage.tsx:17-18 | A product whose name and category both miss the term is not found, whatever its brands or tags. |
| SearchPage.MatchesSearchNarrows | src/pages/SearchPage.tsx:17-18 | A term that contains another matches only products the shorter term matches. |
| SearchPage.SearchAntiMonotone | src/pages/SearchPage.tsx:16-24 | Lengthening the term narrows the results: they are the shorter term's results that also match the longer one, in the same order. |
| AppStore.InitialState | src/store/index.ts:55-67 | The store starts from the seed products and lists and the seed user with an empty cart, online, with no selected store and an empty query. The first seeded list is active, or none when there are no lists; the active id always names a seeded list. |
| AppStore.SettersReplaceOneField | src/store/index.ts:142-144 | `setActiveList`, `setSelectedStore` and `setSearchQuery`, like `setProducts`, `setShoppingLists` and `setOfflineStatus`, replace their own field only, and setting the old value back undoes them. |
| AppStore.AddProduct | src/store/index.ts:71-73 | The product is appended; earlier products and every other field are untouched. |
| Types.ApplyProductPatch | src/store/index.ts:74-78 | `{ ...product, ...updates }`: each field the update carries takes the update's value, including an explicit `undefined` for `brands` or `image`; each field it leaves out keeps the product's value. |
| Types.ProductPatchIdempotent | src/store/index.ts:74-78 | Spreading the same update twice gives what spreading it once gives, and an empty update leaves the product as it was. |
| Types.ApplyListPatch | src/store/index.ts:84-88 | `{ ...list, ...updates, updatedAt }`: each field the update carries takes the update's value, each one it leaves out keeps the list's value, and `updatedAt` is always the current time. |
| Types.ListPatchIdempotent | src/store/index.ts:84-88 | Applying the same list update twice differs from applying it once only in the time stamp; an empty update only restamps the list. |
| Types.ApplyItemPatch | src/store/index.ts:107-118 | `{ ...item, ...updates }` (also used by `updateCartItem`): each field the update carries takes the update's value, including an explicit `undefined` for `notes`; each one it leaves out keeps the item's value. |
| Types.ItemPatchIdempotent | src/store/index.ts:191-198 | Spreading the same item update twice gives what spreading it once gives, and an empty update leaves the item as it was. |
| AppStore.UpdateProduct | src/store/index.ts:74-78 | Products with the id are patched; the others, the count and every other field stay. |
| AppStore.AddShoppingList | src/store/index.ts:81-83 | The list is appended; earlier lists are untouched. |
| AppStore.UpdateShoppingList | src/store/index.ts:84-88 | Lists with the id are patched and stamped with the current time, the stamp winning over the patch; the others stay. |
| AppStore.DeleteShoppingList | src/store/index.ts:89-95 | Every list with the id is removed; the others stay in their order, each as often as before. An active list other than the deleted one stays active. If the deleted list was active and there were several lists, the first list in the original order with another id becomes active (none if its id is empty); with at most one list, none is. |
| AppStore.DeleteKeepsActiveValid | src/store/index.ts:89-95 | After deleting the active list, the active id is unset or names a remaining list. |
| AppStore.AddItemToList | src/store/index.ts:97-106 | Only lists with the id change: the item is appended and `updatedAt` becomes the current time. |
| AppStore.UpdateItemInList | src/store/index.ts:107-118 | Only lists with the id change: their items with the item id are patched and `updatedAt` is set. |
| AppStore.DropItems | src/store/index.ts:123 | Every item with the id goes; the others stay in order, each as often as before. |
| AppStore.RemoveItemFromList | src/store/index.ts:119-128 | Only lists with the id change: every item with the item id is removed and `updatedAt` is set. |
| AppStore.ToggleItemPurchased | src/store/index.ts:129-140 | Only lists with the id change: `purchased` flips on the items with the item id and `updatedAt` is set. |
| AppStore.ToggleItemsTwice | src/store/index.ts:134-136 | Flipping an item's `purchased` twice restores the items. |
| AppStore.ToggleItemPurchasedTwice | src/store/index.ts:129-140 | Toggling twice restores every list except the timestamp of the matching lists. |
| AppStore.DropAfterAppend | src/store/index.ts:119-128 | Removing an item with an id new to the list right after appending it restores the items. |
| AppStore.AddToFavorites | src/store/index.ts:146-151 | The id is appended without de-duplication; nothing else in the state changes. |
| AppStore.RemoveFromFavorites | src/store/index.ts:152-157 | Every occurrence of the id goes; the other favourites stay in order, each as often as before; nothing else changes. |
| AppStore.FavoriteRoundTrip | src/store/index.ts:146-157 | Adding a new favourite and removing it restores the state. |
| AppStore.AddToCart | src/store/index.ts:160-189 | With an entry for the same product, only the first one's quantity grows, keeping its id and unit. Otherwise the item is appended, an unset cart counting as empty. |
| AppStore.AddToCartKeepsDistinct | src/store/index.ts:160-189 | If no two cart entries share a product, that stays true. |
| AppStore.UpdateCartItem | src/store/index.ts:191-198 | Entries with the id are patched, the length is kept and an unset cart stays unset; only the cart changes. |
| AppStore.RemoveFromCart | src/store/index.ts:200-205 | Every entry with the id goes; the rest keep their order, each as often as before; an unset cart stays unset. |
| AppStore.ClearCart | src/store/index.ts:207-212 | The cart becomes empty and nothing else in the user or the state changes. |
| AppStore.ShareList | src/store/index.ts:216-226 | Only lists with the id change: the email is appended (no de-duplication), the list is marked shared, `updatedAt` is set. |
| AppStore.DropEmail | src/store/index.ts:232 | Every occurrence of the email goes; the other recipients stay in order, each as often as before; an unset recipient list stays unset. |
| AppStore.UnshareList | src/store/index.ts:227-237 | Only lists with the id change: every occurrence of the email goes, and the list is shared exactly when some recipient remains. |
| AppStore.ShareThenUnshare | src/store/index.ts:216-237 | Sharing with a new email and unsharing it restores the recipients, and `shared` then reflects whether any remain. |
| ListsPage.ListsAtStore | src/pages/ListsPage.tsx:15-17 | With no store selected every list passes; otherwise exactly the lists at that store pass (lists without a store never do), in order and each as often as before. |
| ListsPage.ByRecency | src/pages/ListsPage.tsx:20-22 | The sorted copy is a rearrangement of its input. |
| ListsPage.ByRecencyOrdered | src/pages/ListsPage.tsx:20-22 | The sorted copy is non-increasing in `updatedAt`. |
| ListsPage.ByRecencyStable | src/pages/ListsPage.tsx:20-22 | Lists with equal `updatedAt` keep their order. |
| ListsPage.VisibleLists | src/pages/ListsPage.tsx:15-22 | The page shows a rearrangement of exactly the lists at the selected store. |
| ListsPage.VisibleListsOrdered | src/pages/ListsPage.tsx:15-22 | The page's lists are most recent first. |
| HomePage.FavoriteProducts | src/pages/HomePage.tsx:14-16 | The catalog-order subsequence of products whose id is among the favourites, each as often as in the catalog. |
| HomePage.FavoriteShownAfterAdd | src/pages/HomePage.tsx:14-16 | Favouriting a product shows every catalog product with that id. |
| HomePage.FavoriteHiddenAfterRemove | src/pages/HomePage.tsx:14-16 | Unfavouriting hides products with that id and keeps the other favourites shown. |
| HomePage.RecentLists | src/pages/HomePage.tsx:19-24 | The recent lists are the first `min(2, n)` lists of the recency order. |
| HomePage.RecentListsAreMostRecent | src/pages/HomePage.tsx:19-24 | Every list left off the home page was updated no later than every list shown, and every shown list is one of the user's. |
| ListDetailPage.ExistingList | src/pages/ListDetailPage.tsx:22 | The first list with the route id (no earlier list has it), or none when the id is missing or no list has it. |
| ListDetailPage.ItemsPartition | src/pages/ListDetailPage.tsx:78-79 | The purchased and still-to-buy groups split the items: sizes add up, counts per item add up, flags are right, each group keeps the list's order. |
| ListDetailPage.ToggleKeepsGroupSizes | src/pages/ListDetailPage.tsx:78-79 | Toggling an item moves it, flag flipped, into the other group; every item with another id stays in its group; the two groups still hold all the items. |
| ListDetailPage.StorePatch | src/pages/ListDetailPage.tsx:63-64 | The update sets the store to the selection, a cleared selection becoming "no store", and touches nothing else. |
| ListDetailPage.HandleNameChange | src/pages/ListDetailPage.tsx:55-61 | Off the `new` route and for an existing list, that list is renamed and stamped and every other list and the rest of the state are unchanged; otherwise nothing changes. |
| ListDetailPage.HandleStoreChange | src/pages/ListDetailPage.tsx:63-69 | Off the `new` route and for an existing list, that list's store is set or cleared and stamped and every other list and the rest of the state are unchanged; otherwise nothing changes. |
| ListDetailPage.ClearedStoreHiddenByStoreFilter | src/pages/ListDetailPage.tsx:63-69 | Once a list's store is cleared, the lists page hides it under every store filter. |
| ListDetailPage.StoreChangeUndone | src/pages/ListDetailPage.tsx:63-69 | Changing the store and then setting it back restores every list apart from the timestamp. |
| ListDetailPage.HandleDeleteList | src/pages/ListDetailPage.tsx:71-76 | For an existing list every list with its id is gone and the others remain in order with their multiplicities. The active list stays unless it was the deleted one, in which case it becomes the first remaining list (or none). Nothing else changes. For a missing list nothing changes. |
| ListDetailPage.SubmitOnPage | src/pages/ListDetailPage.tsx:136-142 | Submitting the form on the list page, the form's `addItemToList` followed by the page's `onAddItem` write: without a product nothing changes; with a route list, every list sharing its id ends up holding the route list's items plus the new item, stamped with the second time, with every other field and list unchanged; without a route list only lists with the empty id can change. Nothing outside the lists changes. |
| ListDetailPage.SubmitOnPageIsOneAdd | src/pages/ListDetailPage.tsx:136-142 | When every list with the route list's id holds the same items (so in particular when the id is unique), the two writes together equal the form's single `addItemToList` at the later time. |
| ListDetailPage.NewListEffect | src/pages/ListDetailPage.tsx:29-44 | On the `new` route (`IsNewList`: the route id is `new`, line 15) with no list of that id, an empty unshared list with the form's name and store and the two creation timestamps is appended and nothing else changes; otherwise nothing changes at all. |
| ListDetailPage.NewListFoundAfterRedirect | src/pages/ListDetailPage.tsx:29-44 | The list created under a fresh id is exactly what the redirected route finds. |
| ListCard.PurchasedCount | src/components/shopping/ListCard.tsx:11-12 | The purchased count never exceeds the item count. |
| ListCard.Progress | src/components/shopping/ListCard.tsx:11-13 | The progress lies between 0 and 100 and is 0 for an empty list. |
| ListCard.ProgressFullIffAllPurchased | src/components/shopping/ListCard.tsx:13 | Progress is 100 exactly when the list has items and all are purchased. |
| ListCard.ProgressEmptyIffNonePurchased | src/components/shopping/ListCard.tsx:13 | Progress is 0 exactly when no item is purchased. |
| ListCard.ProgressComplement | src/components/shopping/ListCard.tsx:11-13 | For a non-empty list, the purchased and still-to-buy percentages add up to 100. |
| Sorting.Sort | src/pages/ShopPage.tsx:72 | The sort returns a rearrangement of its input. |
| Sorting.SortSorted | src/pages/ShopPage.tsx:72 | With a consistent comparator, every element is "not after" each later one. |
| Sorting.SortStable | src/components/shopping/AddItemForm.tsx:89 | Elements tied with each other keep their input order. |
| Seqs.FilterHeadIsFindIndex | src/store/index.ts:90-93 | The first list the delete keeps is the one `find` returns, and there is none exactly when `find` finds none. |
| Seqs.FindIndex | src/store/index.ts:162-164 | The first position passing the test, or -1 exactly when none does. |

## Left out

- Rendering, hooks and effect scheduling are not modelled, since they are UI plumbing. This covers the simulated 800 ms load (`isLoading` is a parameter instead), the click-outside listener and the dropdown visibility flags.
- The form handlers that only move UI state are not modelled: `handleProductSelect`, `handleAddNewItem`, `handleCancelAddNew` and `handleKeyDown` in the add-item form, and the effect that copies a list into the detail page's local state. `handleProductSelect` also picks the unit of the first store in JavaScript object order, and a `map` has no such order.
- The `setTimeout` that resets the selected store after `clearFilters` is not modelled. `ClearedShowsWholeCatalog` states what holds once it has run.
- The `try`/`catch` around the shop pipeline (src/pages/ShopPage.tsx:45, 93-97) is left out, with its `loadError` message and empty result. `Product.stores` may hold an explicitly `undefined` entry, and the popularity count's `s.inStock` would then throw. Offers here are a `map` with no undefined entries, so the model never reaches the catch.
- Persistence through zustand's `persist` middleware and localStorage is I/O through a library outside this model.
- Routing and navigation are left out. The route parameter is a plain `Option<string>`.
- Locale collation is the abstract `collate` parameter.
- Unicode case mapping is left out: `Lower` maps ASCII letters only.
- UTF-16 code units are left out. A JavaScript string is a sequence of UTF-16 code units, and a Dafny `string` is a sequence of Unicode scalar values. The two agree on the Basic Multilingual Plane. Outside it, `length`, indexing and `includes` differ: an emoji counts 2 toward the source's fuzzy budget and 1 toward `MaxDistance`.
- Dates are integer timestamps, so date formatting is left out.
- Id and time generation (`uuidv4`, `Date.now`, `new Date()`) become parameters.
- Floating-point money is left out. This covers the cart subtotal, the ±0.1 quantity stepping, the 20% `getDiscountedPrice`, the cheapest-price display and the cart badge. Prices are integers and are only compared.
- The cart page's checkout is not modelled separately. Its state effect is `addShoppingList` followed by `clearCart`, and both are modelled.
- The profile page, the presentational components (`Button`, `Input`, `Select`, `StoreSelector`, `ListItem`, `CartIndicator`) and the mock catalog data are left out.
- AddItemForm.ToggleCategoryTwice: choosing a chip twice restores the filter only when it was off or already on that chip. From another chip, two clicks switch the filter off (`AddItemForm.ToggleCategoryTwiceFromOther`).

=== FILE: add_item_form.dfy ===
/**
  The add-item form: the search dropdown (fuzzy name match or substring
  match on category, brand or tag, an optional exact category filter, then
  a stable "name contains the term first" sort), the category filter
  toggle, the construction of a new catalog product, and the submission of
  a list item.
 */
module AddItemForm {
  import opened Types
  import opened Strings
  import opened Seqs
  import opened Sorting
  import opened Fuzzy
  import opened Catalog
  import AppStore

  /** The dropdown's per-product test, on the untrimmed term. */
  predicate DropdownMatch(p: Product, term: string)
  {
    || FuzzyMatch(p.name, term)
    || CategoryHasTerm(p, term)
    || AnyContains(p.brands, Lower(term))
    || AnyContains(p.tags, Lower(term))
  }

  function MatchesTerm(term: string): Product -> bool { (p: Product) => DropdownMatch(p, term) }

  /** The products the dropdown keeps before sorting: the match filter, then the category filter. */
  function DropdownFiltered(products: seq<Product>, term: string, active: Option<string>): seq<Product>
  {
    var matched := Filter(products, MatchesTerm(term));
    if CategoryFilterOn(active) then Filter(matched, InCategory(active.value)) else matched
  }

  /** One predicate saying what the two filters keep together. */
  predicate DropdownAccepts(p: Product, term: string, active: Option<string>)
  {
    DropdownMatch(p, term) && (CategoryFilterOn(active) ==> p.category == active.value)
  }

  function AcceptedBy(term: string, active: Option<string>): Product -> bool
  {
    (p: Product) => DropdownAccepts(p, term, active)
  }

  /** The two filters in a row are the single filter by `DropdownAccepts`. */
  lemma DropdownFilteredIsOneFilter(products: seq<Product>, term: string, active: Option<string>)
    ensures DropdownFiltered(products, term, active) == Filter(products, AcceptedBy(term, active))
  {
    if CategoryFilterOn(active) {
      FilterFilter(products, MatchesTerm(term), InCategory(active.value), AcceptedBy(term, active));
    } else {
      FilterExtensional(products, MatchesTerm(term), AcceptedBy(term, active));
    }
  }

  function NameHit(term: string): Product -> bool { (p: Product) => NameHasTerm(p, term) }
  function NameMiss(term: string): Product -> bool { (p: Product) => !NameHasTerm(p, term) }

  /** The relevance comparator: name hits before misses, everything else tied. */
  function RelevanceCompare(term: string): (Product, Product) -> int
  {
    (a: Product, b: Product) =>
      if NameHasTerm(a, term) && !NameHasTerm(b, term) then -1
      else if !NameHasTerm(a, term) && NameHasTerm(b, term) then 1
      else 0
  }

  /**
    The dropdown list for a search term: empty for a blank term, otherwise
    the filtered catalog sorted by relevance.
   */
  function DropdownResults(products: seq<Product>, term: string, active: Option<string>): (r: seq<Product>)
    ensures IsBlank(term) ==> r == []
    ensures !IsBlank(term) ==> multiset(r) == multiset(Filter(products, AcceptedBy(term, active)))
    ensures forall p :: p in r <==> !IsBlank(term) && p in products && DropdownAccepts(p, term, active)
  {
    if IsBlank(term) then []
    else
      DropdownFilteredIsOneFilter(products, term, active);
      var filtered := DropdownFiltered(products, term, active);
      SortMembers(filtered, RelevanceCompare(term));
      Sort(filtered, RelevanceCompare(term))
  }

  lemma RelevanceConsistent(term: string)
    ensures ConsistentComparator(RelevanceCompare(term))
  {
  }

  /** Every product whose name contains the term comes before every product whose name does not. */
  lemma DropdownNameHitsFirst(products: seq<Product>, term: string, active: Option<string>)
    ensures var r := DropdownResults(products, term, active);
            forall i, j :: 0 <= i < j < |r| && NameHasTerm(r[j], term) ==> NameHasTerm(r[i], term)
  {
    if !IsBlank(term) {
      RelevanceConsistent(term);
      SortSorted(DropdownFiltered(products, term, active), RelevanceCompare(term));
    }
  }

  /** The name hits, and the misses, each keep their catalog order. */
  lemma DropdownGroupsKeepOrder(products: seq<Product>, term: string, active: Option<string>)
    requires !IsBlank(term)
    ensures var r := DropdownResults(products, term, active);
            && Filter(r, NameHit(term)) == Filter(products, (p: Product) => DropdownAccepts(p, term, active) && NameHasTerm(p, term))
            && Filter(r, NameMiss(term)) == Filter(products, (p: Product) => DropdownAccepts(p, term, active) && !NameHasTerm(p, term))
  {
    var cmp := RelevanceCompare(term);
    var filtered := DropdownFiltered(products, term, active);
    DropdownFilteredIsOneFilter(products, term, active);
    SortStable(filtered, cmp, NameHit(term));
    SortStable(filtered, cmp, NameMiss(term));
    FilterFilter(products, AcceptedBy(term, active), NameHit(term),
                 (p: Product) => DropdownAccepts(p, term, active) && NameHasTerm(p, term));
    FilterFilter(products, AcceptedBy(term, active), NameMiss(term),
                 (p: Product) => DropdownAccepts(p, term, active) && !NameHasTerm(p, term));
  }

  /** A product whose name contains the term always passes the match filter. */
  lemma NameHitIsMatch(p: Product, term: string)
    requires NameHasTerm(p, term)
    ensures DropdownMatch(p, term)
  {
  }

  // ----- category filter chips -----

  /** `handleCategoryFilter`: the active chip clears the filter, any other chip selects itself. */
  function ToggleCategoryFilter(active: Option<string>, category: string): (r: Option<string>)
    ensures r.None? <==> active == Some(category)
    ensures r.Some? ==> r.value == category
  {
    if active == Some(category) then None else Some(category)
  }

  /** Choosing the same chip twice restores the filter when it was off or already on that chip. */
  lemma ToggleCategoryTwice(active: Option<string>, category: string)
    requires active.None? || active == Some(category)
    ensures ToggleCategoryFilter(ToggleCategoryFilter(active, category), category) == active
  {
  }

  /** With another chip active, choosing a chip twice switches the filter off instead. */
  lemma ToggleCategoryTwiceFromOther(active: Option<string>, category: string)
    requires active.Some? && active.value != category
    ensures ToggleCategoryFilter(ToggleCategoryFilter(active, category), category) == None
    ensures ToggleCategoryFilter(ToggleCategoryFilter(active, category), category) != active
  {
  }

  /** Selecting a (non-empty) chip restricts the dropdown to exactly that category. */
  lemma ToggleRestrictsToCategory(products: seq<Product>, term: string, active: Option<string>, category: string)
    requires active != Some(category) && category != ""
    ensures forall p :: p in DropdownResults(products, term, ToggleCategoryFilter(active, category)) ==>
              p.category == category
  {
  }

  // ----- new product -----

  /** One offer per store, all at price 0, in stock, in the chosen unit. */
  function FreshOffers(unit: Unit): (r: map<Store, Offer>)
    ensures forall s :: s in r <==> s in AllStores
    ensures forall s :: s in r ==> r[s] == Offer(0, unit, true)
  {
    map s | s in AllStores :: Offer(0, unit, true)
  }

  /**
    `handleSubmitNewProduct`: nothing for a blank name; otherwise a product
    with the trimmed name, the chosen category, the brand only when one was
    typed, a zero-price in-stock offer at every store, and the lower-cased
    category as its only tag. `id` stands for `p${Date.now()}`.
   */
  function NewProduct(id: string, name: string, brand: string, category: string, unit: Unit): (r: Option<Product>)
    ensures r.None? <==> IsBlank(name)
    ensures r.Some? ==>
              && r.value.id == id
              && r.value.name == Trim(name) && |r.value.name| > 0
              && r.value.category == category
              && (r.value.brands.Some? <==> brand != "")
              && (r.value.brands.Some? ==> r.value.brands.value == [brand])
              && (forall s :: s in AllStores ==> InStockAt(r.value, s) && r.value.stores[s].price == 0 && r.value.stores[s].unit == unit)
              && r.value.tags == Some([Lower(category)])
              && r.value.image.None?
  {
    if IsBlank(name) then None
    else
      Some(Product(id, Trim(name), category, if brand != "" then Some([brand]) else None,
                   FreshOffers(unit), None, Some([Lower(category)])))
  }

  /** A non-empty string without surrounding whitespace is not blank. */
  lemma TrimmedNotBlank(s: string)
    requires |s| > 0 && !IsWhitespace(s[0])
    ensures !IsBlank(s)
  {
    BlankIffAllWhitespace(s);
  }

  /**
    After a product is created, the form searches for its (trimmed) name,
    and the dropdown, with the filter off or on the product's category,
    lists the new product, and its name is a name hit.
   */
  lemma NewProductFoundByItsName(products: seq<Product>, id: string, name: string, brand: string,
                                 category: string, unit: Unit, active: Option<string>)
    requires !IsBlank(name)
    requires !CategoryFilterOn(active) || active.value == category
    ensures var p := NewProduct(id, name, brand, category, unit).value;
            && p in DropdownResults(products + [p], p.name, active)
            && NameHasTerm(p, p.name)
  {
    var p := NewProduct(id, name, brand, category, unit).value;
    TrimmedNotBlank(p.name);
    ContainsSelf(Lower(p.name));
    assert p in products + [p];
  }

  // ----- submitting an item -----

  /** `notes || undefined`. */
  function NotesOrNone(notes: string): (r: Option<string>)
    ensures r.None? <==> notes == ""
    ensures r.Some? ==> r.value == notes
  {
    if notes == "" then None else Some(notes)
  }

  /** The item `handleSubmit` builds, with `itemId` standing for `uuidv4()`. */
  function FormItem(itemId: string, productId: string, quantity: int, unit: Unit, notes: string): ShoppingItem
  {
    ShoppingItem(itemId, productId, quantity, unit, false, NotesOrNone(notes))
  }

  /**
    `handleSubmit`: nothing without a chosen product; otherwise an unpurchased
    item is appended to the list.
   */
  function SubmitItem(st: AppStore.AppState, listId: string, itemId: string, productId: string,
                      quantity: int, unit: Unit, notes: string, now: int): (r: AppStore.AppState)
    ensures productId == "" ==> r == st
    ensures r.(shoppingLists := st.shoppingLists) == st
    ensures productId != "" ==>
              && AppStore.OnlyListTouched(st.shoppingLists, r.shoppingLists, listId, now)
              && forall i :: 0 <= i < |st.shoppingLists| && st.shoppingLists[i].id == listId ==>
                   && r.shoppingLists[i].shared == st.shoppingLists[i].shared
                   && r.shoppingLists[i].sharedWith == st.shoppingLists[i].sharedWith
                   && |r.shoppingLists[i].items| == |st.shoppingLists[i].items| + 1
                   && r.shoppingLists[i].items[..|st.shoppingLists[i].items|] == st.shoppingLists[i].items
                   && var added := r.shoppingLists[i].items[|st.shoppingLists[i].items|];
                      added.id == itemId && added.productId == productId && added.quantity == quantity
                      && added.unit == unit && !added.purchased && (added.notes.None? <==> notes == "")
                      && (added.notes.Some? ==> added.notes.value == notes)
  {
    if productId == "" then st
    else AppStore.AddItemToList(st, listId, FormItem(itemId, productId, quantity, unit, notes), now)
  }

  /** Removing the item just submitted (under a fresh id) restores every list's items. */
  lemma SubmitThenRemove(st: AppStore.AppState, listId: string, itemId: string, productId: string,
                         quantity: int, unit: Unit, notes: string, now1: int, now2: int)
    requires productId != ""
    requires forall l, it :: l in st.shoppingLists && it in l.items ==> it.id != itemId
    ensures var r := AppStore.RemoveItemFromList(SubmitItem(st, listId, itemId, productId, quantity, unit, notes, now1),
                                                 listId, itemId, now2);
            && |r.shoppingLists| == |st.shoppingLists|
            && forall i :: 0 <= i < |st.shoppingLists| ==> r.shoppingLists[i].items == st.shoppingLists[i].items
  {
    var once := SubmitItem(st, listId, itemId, productId, quantity, unit, notes, now1);
    var r := AppStore.RemoveItemFromList(once, listId, itemId, now2);
    forall i | 0 <= i < |st.shoppingLists| && st.shoppingLists[i].id == listId
      ensures r.shoppingLists[i].items == st.shoppingLists[i].items
    {
      var l := st.shoppingLists[i];
      assert l in st.shoppingLists;
      assert once.shoppingLists[i].id == listId;
      AppStore.DropAfterAppend(l.items, FormItem(itemId, productId, quantity, unit, notes));
    }
  }
}

=== FILE: app_store.dfy ===
/**
  The application store: its state and every action, each as a pure
  `state -> state` map. Ids and timestamps that the source draws from
  `uuidv4`, `Date.now` or `new Date()` arrive as parameters (`now`).
 */
module AppStore {
  import opened Types
  import opened Seqs

  datatype AppState = AppState(
    products: seq<Product>,
    shoppingLists: seq<ShoppingList>,
    user: User,
    isOffline: bool,
    activeListId: Option<string>,
    selectedStore: Option<Store>,
    searchQuery: string)

  /**
    The state the store starts from: the seed data, an empty cart, and the
    first seeded list active when there is one.
   */
  function InitialState(products: seq<Product>, lists: seq<ShoppingList>, user: User): (r: AppState)
    ensures r.products == products && r.shoppingLists == lists
    ensures r.user == user.(cart := Some([]))
    ensures r.activeListId == if |lists| > 0 then Some(lists[0].id) else None
    ensures r.activeListId.Some? ==> exists l :: l in r.shoppingLists && l.id == r.activeListId.value
    ensures !r.isOffline && r.selectedStore.None? && r.searchQuery == []
  {
    AppState(products, lists, user.(cart := Some([])), false,
             if |lists| > 0 then Some(lists[0].id) else None, None, [])
  }

  // ----- setters -----

  function SetProducts(st: AppState, products: seq<Product>): AppState { st.(products := products) }
  function SetShoppingLists(st: AppState, lists: seq<ShoppingList>): AppState { st.(shoppingLists := lists) }
  function SetActiveList(st: AppState, listId: Option<string>): AppState { st.(activeListId := listId) }
  function SetSelectedStore(st: AppState, store: Option<Store>): AppState { st.(selectedStore := store) }
  function SetSearchQuery(st: AppState, query: string): AppState { st.(searchQuery := query) }
  function SetOfflineStatus(st: AppState, offline: bool): AppState { st.(isOffline := offline) }

  /**
    Each setter replaces its own field and nothing else, so the latest call
    wins and a setter can be undone by setting the earlier value back.
   */
  lemma SettersReplaceOneField(st: AppState, ps: seq<Product>, ls: seq<ShoppingList>, a: Option<string>,
                               s: Option<Store>, q: string, o: bool)
    ensures SetProducts(st, ps).products == ps && SetProducts(SetProducts(st, ps), st.products) == st
    ensures SetShoppingLists(st, ls).shoppingLists == ls && SetShoppingLists(SetShoppingLists(st, ls), st.shoppingLists) == st
    ensures SetActiveList(st, a).activeListId == a && SetActiveList(SetActiveList(st, a), st.activeListId) == st
    ensures SetSelectedStore(st, s).selectedStore == s && SetSelectedStore(SetSelectedStore(st, s), st.selectedStore) == st
    ensures SetSearchQuery(st, q).searchQuery == q && SetSearchQuery(SetSearchQuery(st, q), st.searchQuery) == st
    ensures SetOfflineStatus(st, o).isOffline == o && SetOfflineStatus(SetOfflineStatus(st, o), st.isOffline) == st
  {
  }

  // ----- products -----

  /** `addProduct`: appended at the end, earlier products untouched. */
  function AddProduct(st: AppState, p: Product): (r: AppState)
    ensures |r.products| == |st.products| + 1
    ensures r.products[..|st.products|] == st.products && r.products[|st.products|] == p
    ensures r.(products := st.products) == st
  {
    st.(products := st.products + [p])
  }

  /** `updateProduct`: every product with the id is patched; the others and the length stay. */
  function UpdateProduct(st: AppState, productId: string, updates: ProductPatch): (r: AppState)
    ensures |r.products| == |st.products|
    ensures forall i :: 0 <= i < |st.products| && st.products[i].id != productId ==> r.products[i] == st.products[i]
    ensures forall i :: 0 <= i < |st.products| && st.products[i].id == productId ==>
              r.products[i] == ApplyProductPatch(st.products[i], updates)
    ensures r.(products := st.products) == st
  {
    st.(products := MapWhere(st.products, (p: Product) => p.id == productId,
                             (p: Product) => ApplyProductPatch(p, updates)))
  }

  // ----- lists -----

  /**
    Lists other than `listId` are untouched, the number of lists is kept, and
    a matching list keeps its identity, name, store and creation time while
    its `updatedAt` becomes `now`.
   */
  ghost predicate OnlyListTouched(before: seq<ShoppingList>, after: seq<ShoppingList>, listId: string, now: int)
  {
    && |after| == |before|
    && (forall i :: 0 <= i < |before| && before[i].id != listId ==> after[i] == before[i])
    && (forall i :: 0 <= i < |before| && before[i].id == listId ==>
          && after[i].id == before[i].id && after[i].name == before[i].name
          && after[i].store == before[i].store && after[i].createdAt == before[i].createdAt
          && after[i].updatedAt == now)
  }

  /** Apply `f` to every list whose id is `listId`. */
  function MapList(lists: seq<ShoppingList>, listId: string, f: ShoppingList -> ShoppingList): (r: seq<ShoppingList>)
    ensures |r| == |lists|
    ensures forall i :: 0 <= i < |lists| && lists[i].id != listId ==> r[i] == lists[i]
    ensures forall i :: 0 <= i < |lists| && lists[i].id == listId ==> r[i] == f(lists[i])
  {
    MapWhere(lists, (l: ShoppingList) => l.id == listId, f)
  }

  /** `addShoppingList`: appended at the end. */
  function AddShoppingList(st: AppState, list: ShoppingList): (r: AppState)
    ensures |r.shoppingLists| == |st.shoppingLists| + 1
    ensures r.shoppingLists[..|st.shoppingLists|] == st.shoppingLists
    ensures r.shoppingLists[|st.shoppingLists|] == list
    ensures r.(shoppingLists := st.shoppingLists) == st
  {
    st.(shoppingLists := st.shoppingLists + [list])
  }

  /** `updateShoppingList`: matching lists are patched and stamped with `now`. */
  function UpdateShoppingList(st: AppState, listId: string, updates: ListPatch, now: int): (r: AppState)
    ensures |r.shoppingLists| == |st.shoppingLists|
    ensures forall i :: 0 <= i < |st.shoppingLists| && st.shoppingLists[i].id != listId ==>
              r.shoppingLists[i] == st.shoppingLists[i]
    ensures forall i :: 0 <= i < |st.shoppingLists| && st.shoppingLists[i].id == listId ==>
              r.shoppingLists[i] == ApplyListPatch(st.shoppingLists[i], updates, now)
    ensures r.(shoppingLists := st.shoppingLists) == st
  {
    st.(shoppingLists := MapList(st.shoppingLists, listId, (l: ShoppingList) => ApplyListPatch(l, updates, now)))
  }

  /** The active-list rule of `deleteShoppingList`, including `find(...)?.id || null`. */
  function NextActiveList(lists: seq<ShoppingList>, active: Option<string>, listId: string): Option<string>
  {
    if active == Some(listId) then
      if |lists| > 1 then
        var k := FindIndex(lists, (l: ShoppingList) => l.id != listId);
        if k >= 0 && lists[k].id != "" then Some(lists[k].id) else None
      else None
    else active
  }

  /**
    `deleteShoppingList`: every list with the id goes, the rest keep their
    order. An active list other than the deleted one stays active; if the
    deleted one was active, the first remaining list becomes active (or
    nothing, when there was at most one list or that id is empty).
   */
  function DeleteShoppingList(st: AppState, listId: string): (r: AppState)
    ensures forall l :: l in r.shoppingLists <==> l in st.shoppingLists && l.id != listId
    ensures Subsequence(r.shoppingLists, st.shoppingLists)
    ensures forall l :: multiset(r.shoppingLists)[l] == if l.id != listId then multiset(st.shoppingLists)[l] else 0
    ensures st.activeListId != Some(listId) ==> r.activeListId == st.activeListId
    ensures st.activeListId == Some(listId) && |st.shoppingLists| > 1 ==>
              var k := FindIndex(st.shoppingLists, (l: ShoppingList) => l.id != listId);
              r.activeListId == if k >= 0 && st.shoppingLists[k].id != "" then Some(st.shoppingLists[k].id) else None
    ensures st.activeListId == Some(listId) && |st.shoppingLists| <= 1 ==> r.activeListId == None
    ensures st.activeListId == Some(listId) && |st.shoppingLists| > 1 ==>
              r.activeListId == (if |r.shoppingLists| > 0 && r.shoppingLists[0].id != ""
                                 then Some(r.shoppingLists[0].id) else None)
    ensures r.(shoppingLists := st.shoppingLists, activeListId := st.activeListId) == st
  {
    var keep := (l: ShoppingList) => l.id != listId;
    FilterHeadIsFindIndex(st.shoppingLists, keep);
    FilterIsSubsequence(st.shoppingLists, keep);
    FilterMultiset(st.shoppingLists, keep);
    st.(shoppingLists := Filter(st.shoppingLists, keep),
        activeListId := NextActiveList(st.shoppingLists, st.activeListId, listId))
  }

  /**
    After a delete that hit the active list, the active id is either unset
    or names a list that survived.
   */
  lemma DeleteKeepsActiveValid(st: AppState, listId: string)
    requires st.activeListId == Some(listId)
    ensures var r := DeleteShoppingList(st, listId);
            r.activeListId.None? || exists l :: l in r.shoppingLists && l.id == r.activeListId.value
  {
    var r := DeleteShoppingList(st, listId);
    if r.activeListId.Some? {
      assert r.shoppingLists[0] in r.shoppingLists;
    }
  }

  // ----- items in a list -----

  function AppendItem(items: seq<ShoppingItem>, item: ShoppingItem): seq<ShoppingItem> { items + [item] }

  function PatchItems(items: seq<ShoppingItem>, itemId: string, updates: ItemPatch): (r: seq<ShoppingItem>)
    ensures |r| == |items|
    ensures forall i :: 0 <= i < |items| && items[i].id != itemId ==> r[i] == items[i]
    ensures forall i :: 0 <= i < |items| && items[i].id == itemId ==> r[i] == ApplyItemPatch(items[i], updates)
  {
    MapWhere(items, (it: ShoppingItem) => it.id == itemId, (it: ShoppingItem) => ApplyItemPatch(it, updates))
  }

  function DropItems(items: seq<ShoppingItem>, itemId: string): (r: seq<ShoppingItem>)
    ensures forall x :: x in r <==> x in items && x.id != itemId
    ensures forall x :: multiset(r)[x] == if x.id != itemId then multiset(items)[x] else 0
    ensures Subsequence(r, items)
  {
    FilterIsSubsequence(items, (it: ShoppingItem) => it.id != itemId);
    FilterMultiset(items, (it: ShoppingItem) => it.id != itemId);
    Filter(items, (it: ShoppingItem) => it.id != itemId)
  }

  function ToggleItems(items: seq<ShoppingItem>, itemId: string): (r: seq<ShoppingItem>)
    ensures |r| == |items|
    ensures forall i :: 0 <= i < |items| && items[i].id != itemId ==> r[i] == items[i]
    ensures forall i :: 0 <= i < |items| && items[i].id == itemId ==>
              r[i] == items[i].(purchased := !items[i].purchased)
  {
    MapWhere(items, (it: ShoppingItem) => it.id == itemId,
             (it: ShoppingItem) => it.(purchased := !it.purchased))
  }

  /** `addItemToList`: the item is appended to the matching lists. */
  function AddItemToList(st: AppState, listId: string, item: ShoppingItem, now: int): (r: AppState)
    ensures OnlyListTouched(st.shoppingLists, r.shoppingLists, listId, now)
    ensures forall i :: 0 <= i < |st.shoppingLists| && st.shoppingLists[i].id == listId ==>
              r.shoppingLists[i] == st.shoppingLists[i].(items := st.shoppingLists[i].items + [item], updatedAt := now)
    ensures r.(shoppingLists := st.shoppingLists) == st
  {
    st.(shoppingLists := MapList(st.shoppingLists, listId,
                                 (l: ShoppingList) => l.(items := AppendItem(l.items, item), updatedAt := now)))
  }

  /** `updateItemInList`: items with the id are patched inside the matching lists. */
  function UpdateItemInList(st: AppState, listId: string, itemId: string, updates: ItemPatch, now: int): (r: AppState)
    ensures OnlyListTouched(st.shoppingLists, r.shoppingLists, listId, now)
    ensures forall i :: 0 <= i < |st.shoppingLists| && st.shoppingLists[i].id == listId ==>
              r.shoppingLists[i] == st.shoppingLists[i].(items := PatchItems(st.shoppingLists[i].items, itemId, updates), updatedAt := now)
    ensures r.(shoppingLists := st.shoppingLists) == st
  {
    st.(shoppingLists := MapList(st.shoppingLists, listId,
                                 (l: ShoppingList) => l.(items := PatchItems(l.items, itemId, updates), updatedAt := now)))
  }

  /** `removeItemFromList`: every item with the id leaves the matching lists. */
  function RemoveItemFromList(st: AppState, listId: string, itemId: string, now: int): (r: AppState)
    ensures OnlyListTouched(st.shoppingLists, r.shoppingLists, listId, now)
    ensures forall i :: 0 <= i < |st.shoppingLists| && st.shoppingLists[i].id == listId ==>
              r.shoppingLists[i] == st.shoppingLists[i].(items := DropItems(st.shoppingLists[i].items, itemId), updatedAt := now)
    ensures r.(shoppingLists := st.shoppingLists) == st
  {
    st.(shoppingLists := MapList(st.shoppingLists, listId,
                                 (l: ShoppingList) => l.(items := DropItems(l.items, itemId), updatedAt := now)))
  }

  /** `toggleItemPurchased`: `purchased` flips on the items with the id, in the matching lists. */
  function ToggleItemPurchased(st: AppState, listId: string, itemId: string, now: int): (r: AppState)
    ensures OnlyListTouched(st.shoppingLists, r.shoppingLists, listId, now)
    ensures forall i :: 0 <= i < |st.shoppingLists| && st.shoppingLists[i].id == listId ==>
              r.shoppingLists[i] == st.shoppingLists[i].(items := ToggleItems(st.shoppingLists[i].items, itemId), updatedAt := now)
    ensures r.(shoppingLists := st.shoppingLists) == st
  {
    st.(shoppingLists := MapList(st.shoppingLists, listId,
                                 (l: ShoppingList) => l.(items := ToggleItems(l.items, itemId), updatedAt := now)))
  }

  /** Toggling the same item twice gives back the original items. */
  lemma ToggleItemsTwice(items: seq<ShoppingItem>, itemId: string)
    ensures ToggleItems(ToggleItems(items, itemId), itemId) == items
  {
    var once := ToggleItems(items, itemId);
    var twice := ToggleItems(once, itemId);
    forall i | 0 <= i < |items|
      ensures twice[i] == items[i]
    {
      assert once[i].id == items[i].id;
    }
  }

  /**
    Toggling twice restores every list exactly, except that matching lists
    carry the second timestamp.
   */
  lemma ToggleItemPurchasedTwice(st: AppState, listId: string, itemId: string, now1: int, now2: int)
    ensures var r := ToggleItemPurchased(ToggleItemPurchased(st, listId, itemId, now1), listId, itemId, now2);
            && r.(shoppingLists := st.shoppingLists) == st
            && |r.shoppingLists| == |st.shoppingLists|
            && forall i :: 0 <= i < |st.shoppingLists| ==>
                 r.shoppingLists[i] == if st.shoppingLists[i].id == listId
                                       then st.shoppingLists[i].(updatedAt := now2)
                                       else st.shoppingLists[i]
  {
    var once := ToggleItemPurchased(st, listId, itemId, now1);
    var r := ToggleItemPurchased(once, listId, itemId, now2);
    forall i | 0 <= i < |st.shoppingLists| && st.shoppingLists[i].id == listId
      ensures r.shoppingLists[i] == st.shoppingLists[i].(updatedAt := now2)
    {
      ToggleItemsTwice(st.shoppingLists[i].items, itemId);
    }
  }

  /** Removing a freshly added item (an id not yet in the list) gives back the items. */
  lemma DropAfterAppend(items: seq<ShoppingItem>, item: ShoppingItem)
    requires forall x :: x in items ==> x.id != item.id
    ensures DropItems(AppendItem(items, item), item.id) == items
  {
    var keep := (it: ShoppingItem) => it.id != item.id;
    FilterConcat(items, [item], keep);
    assert forall i :: 0 <= i < |items| ==> items[i] in items;
    FilterKeepsAll(items, keep);
    assert Filter([item], keep) == [];
    assert Filter(items + [item], keep) == items;
  }

  // ----- favourites -----

  /** `addToFavorites`: appended, duplicates allowed. */
  function AddToFavorites(st: AppState, productId: string): (r: AppState)
    ensures r.user.favorites == st.user.favorites + [productId]
    ensures r.(user := st.user) == st && r.user.(favorites := st.user.favorites) == st.user
  {
    st.(user := st.user.(favorites := st.user.favorites + [productId]))
  }

  /** `removeFromFavorites`: every occurrence goes, the others keep their order. */
  function RemoveFromFavorites(st: AppState, productId: string): (r: AppState)
    ensures productId !in r.user.favorites
    ensures forall f :: f != productId ==> (f in r.user.favorites <==> f in st.user.favorites)
    ensures Subsequence(r.user.favorites, st.user.favorites)
    ensures forall f :: multiset(r.user.favorites)[f] == if f != productId then multiset(st.user.favorites)[f] else 0
    ensures r.(user := st.user) == st && r.user.(favorites := st.user.favorites) == st.user
  {
    FilterIsSubsequence(st.user.favorites, (f: string) => f != productId);
    FilterMultiset(st.user.favorites, (f: string) => f != productId);
    st.(user := st.user.(favorites := Filter(st.user.favorites, (f: string) => f != productId)))
  }

  /** Removing a favourite that was just added for the first time restores the favourites. */
  lemma FavoriteRoundTrip(st: AppState, productId: string)
    requires productId !in st.user.favorites
    ensures RemoveFromFavorites(AddToFavorites(st, productId), productId) == st
  {
    var keep := (f: string) => f != productId;
    FilterConcat(st.user.favorites, [productId], keep);
    FilterKeepsAll(st.user.favorites, keep);
  }

  // ----- cart -----

  /** No two cart entries share a product. */
  ghost predicate DistinctProducts(cart: seq<ShoppingItem>)
  {
    forall i, j :: 0 <= i < j < |cart| ==> cart[i].productId != cart[j].productId
  }

  /** `addToCart`: merge into the first entry for the same product, or append. */
  function AddToCart(st: AppState, item: ShoppingItem): (r: AppState)
    ensures r.(user := st.user) == st && r.user.(cart := st.user.cart) == st.user
    ensures r.user.cart.Some?
    ensures var prev := st.user.cart.GetOr([]);
            var k := FindIndex(prev, (c: ShoppingItem) => c.productId == item.productId);
            && (k == -1 ==> r.user.cart.value == prev + [item])
            && (k >= 0 ==>
                  && |r.user.cart.value| == |prev|
                  && r.user.cart.value[k] == prev[k].(quantity := prev[k].quantity + item.quantity)
                  && forall i :: 0 <= i < |prev| && i != k ==> r.user.cart.value[i] == prev[i])
  {
    var k := if st.user.cart.Some?
             then FindIndex(st.user.cart.value, (c: ShoppingItem) => c.productId == item.productId)
             else -1;
    if k >= 0 && st.user.cart.Some? then
      var cart := st.user.cart.value;
      st.(user := st.user.(cart := Some(cart[k := cart[k].(quantity := cart[k].quantity + item.quantity)])))
    else
      st.(user := st.user.(cart := Some(st.user.cart.GetOr([]) + [item])))
  }

  /** Adding to the cart keeps the products in it pairwise distinct. */
  lemma AddToCartKeepsDistinct(st: AppState, item: ShoppingItem)
    requires DistinctProducts(st.user.cart.GetOr([]))
    ensures DistinctProducts(AddToCart(st, item).user.cart.value)
  {
    var prev := st.user.cart.GetOr([]);
    var k := FindIndex(prev, (c: ShoppingItem) => c.productId == item.productId);
    var cart := AddToCart(st, item).user.cart.value;
    if k == -1 {
      forall i, j | 0 <= i < j < |cart|
        ensures cart[i].productId != cart[j].productId
      {
        if j == |prev| {
          assert cart[i] == prev[i];
        } else {
          assert cart[i] == prev[i] && cart[j] == prev[j];
        }
      }
    } else {
      forall i | 0 <= i < |cart|
        ensures cart[i].productId == prev[i].productId
      {
      }
    }
  }

  /** `updateCartItem`: entries with the id are patched; an unset cart stays unset. */
  function UpdateCartItem(st: AppState, itemId: string, updates: ItemPatch): (r: AppState)
    ensures r.(user := st.user) == st && r.user.(cart := st.user.cart) == st.user
    ensures r.user.cart.Some? <==> st.user.cart.Some?
    ensures st.user.cart.Some? ==> r.user.cart.value == PatchItems(st.user.cart.value, itemId, updates)
  {
    st.(user := st.user.(cart := match st.user.cart
                                 case None => None
                                 case Some(c) => Some(PatchItems(c, itemId, updates))))
  }

  /** `removeFromCart`: every entry with the id goes; an unset cart stays unset. */
  function RemoveFromCart(st: AppState, itemId: string): (r: AppState)
    ensures r.(user := st.user) == st && r.user.(cart := st.user.cart) == st.user
    ensures r.user.cart.Some? <==> st.user.cart.Some?
    ensures st.user.cart.Some? ==> forall x :: x in r.user.cart.value <==> x in st.user.cart.value && x.id != itemId
    ensures st.user.cart.Some? ==> Subsequence(r.user.cart.value, st.user.cart.value)
    ensures st.user.cart.Some? ==>
              forall x :: multiset(r.user.cart.value)[x] == if x.id != itemId then multiset(st.user.cart.value)[x] else 0
  {
    match st.user.cart
    case None => st
    case Some(c) =>
      FilterIsSubsequence(c, (it: ShoppingItem) => it.id != itemId);
      FilterMultiset(c, (it: ShoppingItem) => it.id != itemId);
      st.(user := st.user.(cart := Some(DropItems(c, itemId))))
  }

  /** `clearCart`: the cart becomes empty; nothing else in the user changes. */
  function ClearCart(st: AppState): (r: AppState)
    ensures r.user.cart == Some([])
    ensures r.(user := st.user) == st && r.user.(cart := st.user.cart) == st.user
  {
    st.(user := st.user.(cart := Some([])))
  }

  // ----- sharing -----

  /** `shareList`: the email is appended (no de-duplication) and the list marked shared. */
  function ShareList(st: AppState, listId: string, email: string, now: int): (r: AppState)
    ensures OnlyListTouched(st.shoppingLists, r.shoppingLists, listId, now)
    ensures forall i :: 0 <= i < |st.shoppingLists| && st.shoppingLists[i].id == listId ==>
              && r.shoppingLists[i].shared
              && r.shoppingLists[i].sharedWith == Some(st.shoppingLists[i].sharedWith.GetOr([]) + [email])
              && r.shoppingLists[i].items == st.shoppingLists[i].items
    ensures r.(shoppingLists := st.shoppingLists) == st
  {
    st.(shoppingLists := MapList(st.shoppingLists, listId,
          (l: ShoppingList) => l.(shared := true, sharedWith := Some(l.sharedWith.GetOr([]) + [email]), updatedAt := now)))
  }

  function OtherThan(email: string): string -> bool { (e: string) => e != email }

  /** `list.sharedWith?.filter(e => e !== email)`. */
  function DropEmail(sharedWith: Option<seq<string>>, email: string): (r: Option<seq<string>>)
    ensures r.Some? <==> sharedWith.Some?
    ensures r.Some? ==> email !in r.value
    ensures r.Some? ==> forall e :: e != email ==> (e in r.value <==> e in sharedWith.value)
    ensures r.Some? ==> forall e :: multiset(r.value)[e] == if e != email then multiset(sharedWith.value)[e] else 0
    ensures r.Some? ==> Subsequence(r.value, sharedWith.value)
  {
    match sharedWith
    case None => None
    case Some(ws) =>
      FilterIsSubsequence(ws, OtherThan(email));
      FilterMultiset(ws, OtherThan(email));
      Some(Filter(ws, OtherThan(email)))
  }

  /**
    `unshareList`: every occurrence of the email goes, and the list counts as
    shared exactly when someone is left.
   */
  function UnshareList(st: AppState, listId: string, email: string, now: int): (r: AppState)
    ensures OnlyListTouched(st.shoppingLists, r.shoppingLists, listId, now)
    ensures forall i :: 0 <= i < |st.shoppingLists| && st.shoppingLists[i].id == listId ==>
              && r.shoppingLists[i].sharedWith == DropEmail(st.shoppingLists[i].sharedWith, email)
              && (r.shoppingLists[i].shared <==>
                    r.shoppingLists[i].sharedWith.Some? && |r.shoppingLists[i].sharedWith.value| > 0)
              && r.shoppingLists[i].items == st.shoppingLists[i].items
    ensures r.(shoppingLists := st.shoppingLists) == st
  {
    st.(shoppingLists := MapList(st.shoppingLists, listId,
          (l: ShoppingList) =>
            var remaining := DropEmail(l.sharedWith, email);
            l.(sharedWith := remaining, shared := |remaining.GetOr([])| > 0, updatedAt := now)))
  }

  /** Dropping an email that was just appended, and was not there before, restores the recipients. */
  lemma DropEmailAfterAppend(ws: seq<string>, email: string)
    requires email !in ws
    ensures DropEmail(Some(ws + [email]), email) == Some(ws)
  {
    var keep := OtherThan(email);
    FilterConcat(ws, [email], keep);
    assert forall i :: 0 <= i < |ws| ==> ws[i] in ws;
    FilterKeepsAll(ws, keep);
    assert Filter([email], keep) == [];
    assert Filter(ws + [email], keep) == ws;
    assert DropEmail(Some(ws + [email]), email) == Some(Filter(ws + [email], keep));
  }

  /**
    Sharing with a new email and then unsharing it leaves the matching
    lists' recipients as they were (an unset list becomes an empty one).
   */
  lemma ShareThenUnshare(st: AppState, listId: string, email: string, now1: int, now2: int)
    requires forall l :: l in st.shoppingLists && l.id == listId ==> email !in l.sharedWith.GetOr([])
    ensures var r := UnshareList(ShareList(st, listId, email, now1), listId, email, now2);
            forall i :: 0 <= i < |st.shoppingLists| && st.shoppingLists[i].id == listId ==>
              && r.shoppingLists[i].sharedWith == Some(st.shoppingLists[i].sharedWith.GetOr([]))
              && (r.shoppingLists[i].shared <==> |st.shoppingLists[i].sharedWith.GetOr([])| > 0)
  {
    var once := ShareList(st, listId, email, now1);
    var r := UnshareList(once, listId, email, now2);
    forall i | 0 <= i < |st.shoppingLists| && st.shoppingLists[i].id == listId
      ensures r.shoppingLists[i].sharedWith == Some(st.shoppingLists[i].sharedWith.GetOr([]))
    {
      var ws := st.shoppingLists[i].sharedWith.GetOr([]);
      assert st.shoppingLists[i] in st.shoppingLists;
      assert once.shoppingLists[i].id == listId;
      assert once.shoppingLists[i].sharedWith == Some(ws + [email]);
      DropEmailAfterAppend(ws, email);
    }
  }
}

=== FILE: catalog.dfy ===
/**
  Product tests shared by the three catalog views (the add-item dropdown,
  the shop page and the search page): case-insensitive substring tests on
  a product's fields, the category filter and the in-stock test.
 */
module Catalog {
  import opened Types
  import opened Strings
  import opened Seqs

  /** `xs?.some(x => x.toLowerCase().includes(term)) || false`, for an already lower-cased `term`. */
  predicate AnyContains(xs: Option<seq<string>>, term: string)
  {
    xs.Some? && exists i :: 0 <= i < |xs.value| && Contains(Lower(xs.value[i]), term)
  }

  /** `product.name.toLowerCase().includes(term.toLowerCase())`. */
  predicate NameHasTerm(p: Product, term: string)
  {
    Contains(Lower(p.name), Lower(term))
  }

  /** `product.category.toLowerCase().includes(term.toLowerCase())`. */
  predicate CategoryHasTerm(p: Product, term: string)
  {
    Contains(Lower(p.category), Lower(term))
  }

  /** A category filter held as `string | null` is applied only when truthy: not null and not empty. */
  predicate CategoryFilterOn(selected: Option<string>)
  {
    selected.Some? && selected.value != ""
  }

  function InCategory(category: string): Product -> bool { (p: Product) => p.category == category }

  function StockedAt(s: Store): Product -> bool { (p: Product) => InStockAt(p, s) }

  /** `!selectedStore || (product.stores[selectedStore] && product.stores[selectedStore].inStock)`. */
  predicate StoreMatches(p: Product, selected: Option<Store>)
  {
    selected.None? || InStockAt(p, selected.value)
  }

  /** Every store is one of the four the app knows. */
  lemma AllStoresComplete(s: Store)
    ensures s in AllStores
  {
    match s
    case Woolworths => assert AllStores[0] == s;
    case Coles => assert AllStores[1] == s;
    case Aldi => assert AllStores[2] == s;
    case IGA => assert AllStores[3] == s;
  }

  function Stocks(p: Product): Store -> bool { (s: Store) => InStockAt(p, s) }

  /**
    The stores whose entry for `p` exists and is in stock, in the app's
    store order, each once.
   */
  function StoresStocking(p: Product): (r: seq<Store>)
    ensures forall s :: s in r <==> InStockAt(p, s)
    ensures Subsequence(r, AllStores)
    ensures Distinct(r)
    ensures |r| <= 4
  {
    assert forall s: Store :: s in AllStores by {
      forall s: Store ensures s in AllStores { AllStoresComplete(s); }
    }
    assert Distinct(AllStores);
    FilterIsSubsequence(AllStores, Stocks(p));
    FilterKeepsDistinct(AllStores, Stocks(p));
    Filter(AllStores, Stocks(p))
  }

  /** 1 when the store has the product in stock, else 0. */
  function StockedCount(p: Product, s: Store): nat { if InStockAt(p, s) then 1 else 0 }

  /** The number of stocking stores, counted store by store. */
  lemma StoresStockingCount(p: Product)
    ensures |StoresStocking(p)| == StockedCount(p, Woolworths) + StockedCount(p, Coles)
                                   + StockedCount(p, Aldi) + StockedCount(p, IGA)
  {
    var f := Stocks(p);
    assert AllStores == [Woolworths] + ([Coles] + ([Aldi] + [IGA]));
    FilterConcat([Woolworths], [Coles] + ([Aldi] + [IGA]), f);
    FilterConcat([Coles], [Aldi] + [IGA], f);
    FilterConcat([Aldi], [IGA], f);
    assert forall s: Store :: |Filter([s], f)| == StockedCount(p, s) by {
      forall s: Store ensures |Filter([s], f)| == StockedCount(p, s) {
        assert [s][1..] == [];
      }
    }
  }
}

=== FILE: fuzzy.dfy ===
/**
  The typo-tolerant `fuzzyMatch` of the add-item dropdown: an exact
  case-insensitive substring test, and otherwise a greedy two-cursor scan
  that tolerates a small number of text characters that do not match the
  pattern character under the cursor.
 */
module Fuzzy {
  import opened Strings

  /** `Math.min(2, Math.floor(pattern.length / 3))`. */
  function MaxDistance(n: nat): (r: nat)
    ensures r <= 2 && r <= n / 3
    ensures n < 3 ==> r == 0
    ensures 6 <= n ==> r == 2
    ensures n < 6 ==> r == n / 3
  {
    if n / 3 < 2 then n / 3 else 2
  }

  /**
    The number of mismatches the greedy scan meets from pattern cursor `i`
    and text cursor `j` when it is never cut short: a matching character
    advances both cursors, any other advances only the text cursor. The
    scan ends when either cursor runs off its string.
   */
  function Mismatches(p: string, t: string, i: nat, j: nat): (r: nat)
    requires i <= |p| && j <= |t|
    ensures r <= |t| - j
    decreases |t| - j
  {
    if i < |p| && j < |t| then
      if p[i] == t[j] then Mismatches(p, t, i + 1, j + 1) else 1 + Mismatches(p, t, i, j + 1)
    else 0
  }

  /** The scan as the source runs it: it gives up as soon as the count `d` passes `maxD`. */
  function Scan(p: string, t: string, i: nat, j: nat, d: nat, maxD: nat): bool
    requires i <= |p| && j <= |t|
    decreases |t| - j
  {
    if i < |p| && j < |t| then
      if p[i] == t[j] then Scan(p, t, i + 1, j + 1, d, maxD)
      else if d + 1 > maxD then false
      else Scan(p, t, i, j + 1, d + 1, maxD)
    else true
  }

  /** Giving up early changes nothing: the scan succeeds exactly when the full count fits the budget. */
  lemma {:induction false} ScanWithinBudget(p: string, t: string, i: nat, j: nat, d: nat, maxD: nat)
    requires i <= |p| && j <= |t| && d <= maxD
    ensures Scan(p, t, i, j, d, maxD) <==> d + Mismatches(p, t, i, j) <= maxD
    decreases |t| - j
  {
    if i < |p| && j < |t| {
      if p[i] == t[j] {
        ScanWithinBudget(p, t, i + 1, j + 1, d, maxD);
      } else if d + 1 <= maxD {
        ScanWithinBudget(p, t, i, j + 1, d + 1, maxD);
      }
    }
  }

  /**
    `fuzzyMatch(text, pattern)`: true when the lower-cased text contains the
    lower-cased pattern, or when the scan meets no more mismatches than the
    budget allows. The scan does not require the pattern cursor to reach the
    end of the pattern.
   */
  function FuzzyMatch(text: string, pattern: string): (r: bool)
    ensures r <==> Contains(Lower(text), Lower(pattern))
                   || Mismatches(Lower(pattern), Lower(text), 0, 0) <= MaxDistance(|pattern|)
  {
    var lp := Lower(pattern);
    var lt := Lower(text);
    ScanWithinBudget(lp, lt, 0, 0, 0, MaxDistance(|lp|));
    Contains(lt, lp) || Scan(lp, lt, 0, 0, 0, MaxDistance(|lp|))
  }

  /** The loop of the source, cursor by cursor, with its early `return false`. */
  method FuzzyMatchLoop(text: string, pattern: string) returns (r: bool)
    ensures r <==> Contains(Lower(text), Lower(pattern))
                   || Mismatches(Lower(pattern), Lower(text), 0, 0) <= MaxDistance(|pattern|)
  {
    var p := Lower(pattern);
    var t := Lower(text);
    if Contains(t, p) {
      return true;
    }
    var maxDistance := MaxDistance(|p|);
    var distance := 0;
    var i := 0;
    var j := 0;
    while i < |p| && j < |t|
      invariant 0 <= i <= |p| && 0 <= j <= |t|
      invariant distance <= maxDistance
      invariant distance + Mismatches(p, t, i, j) == Mismatches(p, t, 0, 0)
      decreases |t| - j
    {
      if p[i] == t[j] {
        i := i + 1;
      } else {
        distance := distance + 1;
        if distance > maxDistance {
          return false;
        }
      }
      j := j + 1;
    }
    return true;
  }

  /** The match ignores the case of both arguments. */
  lemma FuzzyMatchCaseInsensitive(text: string, pattern: string)
    ensures FuzzyMatch(Lower(text), pattern) == FuzzyMatch(text, pattern)
    ensures FuzzyMatch(text, Lower(pattern)) == FuzzyMatch(text, pattern)
  {
    LowerIdempotent(text);
    LowerIdempotent(pattern);
  }

  lemma {:induction false} MismatchesAlongPrefix(p: string, t: string, i: nat, j: nat)
    requires i <= |p| && j <= |t|
    requires IsPrefix(t[j..], p[i..])
    ensures Mismatches(p, t, i, j) == 0
    decreases |t| - j
  {
    if i < |p| && j < |t| {
      assert t[j] == t[j..][0] == p[i..][0] == p[i];
      assert t[j + 1..] == t[j..][1..] && p[i + 1..] == p[i..][1..];
      MismatchesAlongPrefix(p, t, i + 1, j + 1);
    }
  }

  /**
    The permissive quirk: a text that is (case-insensitively) a prefix of
    the pattern always matches, although most of the pattern is never
    compared. The empty text is the extreme case.
   */
  lemma FuzzyMatchTextPrefixOfPattern(text: string, pattern: string)
    requires IsPrefix(Lower(text), Lower(pattern))
    ensures FuzzyMatch(text, pattern)
  {
    var lt := Lower(text);
    var lp := Lower(pattern);
    assert lt[0..] == lt && lp[0..] == lp;
    MismatchesAlongPrefix(lp, lt, 0, 0);
  }

  lemma {:induction false} MismatchesForeign(p: string, t: string, j: nat, c: char)
    requires 0 < |p| && j <= |t|
    requires p[0] != c
    requires forall k :: 0 <= k < |t| ==> t[k] == c
    ensures Mismatches(p, t, 0, j) == |t| - j
    decreases |t| - j
  {
    if j < |t| {
      MismatchesForeign(p, t, j + 1, c);
    }
  }

  /**
    A text of the pattern's length made only of a character the pattern
    does not use has as many mismatches as characters, more than any
    budget, so a non-empty pattern rejects it.
   */
  lemma FuzzyMatchRejectsForeignText(pattern: string, c: char)
    requires 0 < |pattern|
    requires c !in Lower(pattern) && LowerChar(c) == c
    ensures !FuzzyMatch(seq(|pattern|, _ => c), pattern)
  {
    var text := seq(|pattern|, _ => c);
    var lt := Lower(text);
    var lp := Lower(pattern);
    assert forall k :: 0 <= k < |lt| ==> lt[k] == c;
    assert lp[0] in lp;
    ContainsIffOccurs(lt, lp);
    MismatchesForeign(lp, lt, 0, c);
  }

  /** A one-letter slip in a six-letter pattern is tolerated (budget 2). */
  lemma FuzzyMatchToleratesTypo(text: string, pattern: string)
    requires text == "Bananas" && pattern == "banans"
    ensures FuzzyMatch(text, pattern)
    ensures !Contains(Lower(text), Lower(pattern))
  {
    var p, t := Lower(pattern), Lower(text);
    assert t == "bananas";
    assert p == "banans";
    assert Mismatches(p, t, 0, 0) == 1 by {
      assert Mismatches(p, t, 6, 7) == 0;
      assert Mismatches(p, t, 5, 6) == 0;
      assert Mismatches(p, t, 5, 5) == 1;
      assert Mismatches(p, t, 4, 4) == 1;
      assert Mismatches(p, t, 3, 3) == 1;
      assert Mismatches(p, t, 2, 2) == 1;
      assert Mismatches(p, t, 1, 1) == 1;
    }
    assert !Contains(t, p) by {
      assert t[..|p|][5] != p[5];
      assert t[1..][..|p|][0] != p[0];
      assert !Contains(t[1..][1..], p);
    }
  }

  /**
    "Mild Cheese" does not match "milk": no substring, and the budget for a
    four-letter pattern is 1 while the scan meets 2 mismatches ('d', ' ').
   */
  lemma FuzzyMatchMildCheese(text: string, pattern: string)
    requires text == "Mild Cheese" && pattern == "milk"
    ensures !FuzzyMatch(text, pattern)
  {
    var p, t := Lower(pattern), Lower(text);
    assert t == "mild cheese";
    assert p == "milk";
    assert Mismatches(p, t, 0, 0) >= 2 by {
      assert Mismatches(p, t, 3, 4) == 1 + Mismatches(p, t, 3, 5);
      assert Mismatches(p, t, 3, 3) == 1 + Mismatches(p, t, 3, 4);
      assert Mismatches(p, t, 2, 2) == Mismatches(p, t, 3, 3);
      assert Mismatches(p, t, 1, 1) == Mismatches(p, t, 2, 2);
      assert Mismatches(p, t, 0, 0) == Mismatches(p, t, 1, 1);
    }
    assert !Contains(t, p) by {
      assert 'k' in p && 'k' !in t;
      if Contains(t, p) {
        ContainsChars(t, p, 'k');
      }
    }
    assert MaxDistance(|pattern|) == 1;
  }
}

=== FILE: home_page.dfy ===
/**
  The home page: the user's favourite products in catalog order, and the
  two most recently updated lists.
 */
module HomePage {
  import opened Types
  import opened Seqs
  import opened Sorting
  import opened ListsPage
  import AppStore

  function IsFavorite(favorites: seq<string>): Product -> bool
  {
    (p: Product) => p.id in favorites
  }

  /** `products.filter(product => user.favorites.includes(product.id))`. */
  function FavoriteProducts(products: seq<Product>, favorites: seq<string>): (r: seq<Product>)
    ensures forall p :: p in r <==> p in products && p.id in favorites
    ensures Subsequence(r, products)
    ensures forall p :: multiset(r)[p] == if p.id in favorites then multiset(products)[p] else 0
  {
    FilterIsSubsequence(products, IsFavorite(favorites));
    FilterMultiset(products, IsFavorite(favorites));
    Filter(products, IsFavorite(favorites))
  }

  /** Favouriting a product puts every catalog product with that id on the home page. */
  lemma FavoriteShownAfterAdd(st: AppStore.AppState, productId: string)
    ensures var shown := FavoriteProducts(st.products, AppStore.AddToFavorites(st, productId).user.favorites);
            forall p :: p in st.products && p.id == productId ==> p in shown
  {
  }

  /** Unfavouriting removes it again, and leaves the other favourites shown. */
  lemma FavoriteHiddenAfterRemove(st: AppStore.AppState, productId: string)
    ensures var shown := FavoriteProducts(st.products, AppStore.RemoveFromFavorites(st, productId).user.favorites);
            forall p :: p in st.products ==>
              (p in shown <==> p.id != productId && p.id in st.user.favorites)
  {
  }

  /** `sortedLists.slice(0, 2)`. */
  function RecentLists(lists: seq<ShoppingList>): (r: seq<ShoppingList>)
    ensures |r| == if |lists| < 2 then |lists| else 2
    ensures r == ByRecency(lists)[..|r|]
  {
    var sorted := ByRecency(lists);
    if |sorted| < 2 then sorted[..|sorted|] else sorted[..2]
  }

  /**
    No list left off the home page was updated after a list shown on it,
    and every shown list is one of the user's lists.
   */
  lemma RecentListsAreMostRecent(lists: seq<ShoppingList>)
    ensures var r := RecentLists(lists);
            && (forall l :: l in r ==> l in lists)
            && forall l, k :: l in lists && l !in r && 0 <= k < |r| ==> l.updatedAt <= r[k].updatedAt
  {
    var sorted := ByRecency(lists);
    var r := RecentLists(lists);
    ByRecencyOrdered(lists);
    SortMembers(lists, RecencyCompare());
    forall l, k | l in lists && l !in r && 0 <= k < |r|
      ensures l.updatedAt <= r[k].updatedAt
    {
      var j :| 0 <= j < |sorted| && sorted[j] == l;
      assert j >= |r|;
      assert r[k] == sorted[k];
    }
    forall l | l in r
      ensures l in lists
    {
      assert l in sorted;
    }
  }
}

=== FILE: list_card.dfy ===
/**
  The list card's progress bar: how many of a list's items are purchased,
  as a percentage, computed with exact reals.
 */
module ListCard {
  import opened Types
  import opened Seqs
  import ListDetailPage

  /** `list.items.length`. */
  function TotalItems(l: ShoppingList): nat
  {
    |l.items|
  }

  /** `list.items.filter(item => item.purchased).length`. */
  function PurchasedCount(l: ShoppingList): (r: nat)
    ensures r <= TotalItems(l)
  {
    |ListDetailPage.PurchasedItems(l.items)|
  }

  lemma PercentBounds(p: real, t: real)
    requires 0.0 <= p <= t && t > 0.0
    ensures 0.0 <= (p / t) * 100.0 <= 100.0
  {
    assert p / t <= 1.0 by {
      assert (p / t) * t == p;
    }
  }

  /** `totalItems > 0 ? (purchasedItems / totalItems) * 100 : 0`. */
  function Progress(l: ShoppingList): (r: real)
    ensures 0.0 <= r <= 100.0
    ensures TotalItems(l) == 0 ==> r == 0.0
  {
    if TotalItems(l) > 0 then
      PercentBounds(PurchasedCount(l) as real, TotalItems(l) as real);
      (PurchasedCount(l) as real / TotalItems(l) as real) * 100.0
    else 0.0
  }

  lemma PercentIsHundred(p: real, t: real)
    requires t > 0.0
    ensures (p / t) * 100.0 == 100.0 <==> p == t
  {
    assert (p / t) * t == p;
    if (p / t) * 100.0 == 100.0 {
      assert p / t == 1.0;
    }
  }

  lemma PercentIsZero(p: real, t: real)
    requires t > 0.0
    ensures (p / t) * 100.0 == 0.0 <==> p == 0.0
  {
    assert (p / t) * t == p;
  }

  lemma PercentAdds(p: real, u: real, t: real)
    requires t > 0.0
    ensures (p / t) * 100.0 + (u / t) * 100.0 == ((p + u) / t) * 100.0
  {
    assert p / t + u / t == (p + u) / t;
  }

  /** The bar is full exactly when the list has items and every one of them is purchased. */
  lemma ProgressFullIffAllPurchased(l: ShoppingList)
    ensures Progress(l) == 100.0 <==> TotalItems(l) > 0 && forall i :: 0 <= i < |l.items| ==> l.items[i].purchased
  {
    FilterFullLength(l.items, ListDetailPage.IsPurchased());
    if TotalItems(l) > 0 {
      PercentIsHundred(PurchasedCount(l) as real, TotalItems(l) as real);
    }
  }

  /** The bar is empty exactly when nothing in the list is purchased. */
  lemma ProgressEmptyIffNonePurchased(l: ShoppingList)
    ensures Progress(l) == 0.0 <==> forall i :: 0 <= i < |l.items| ==> !l.items[i].purchased
  {
    var items := l.items;
    if TotalItems(l) > 0 {
      PercentIsZero(PurchasedCount(l) as real, TotalItems(l) as real);
    }
    if PurchasedCount(l) > 0 {
      var x := ListDetailPage.PurchasedItems(items)[0];
      assert x in ListDetailPage.PurchasedItems(items);
      var i :| 0 <= i < |items| && items[i] == x;
    } else {
      forall i | 0 <= i < |items|
        ensures !items[i].purchased
      {
        assert items[i] in items;
      }
    }
  }

  /** The purchased share and the still-to-buy share add up to the whole bar. */
  lemma ProgressComplement(l: ShoppingList)
    requires TotalItems(l) > 0
    ensures Progress(l) + (|ListDetailPage.UnpurchasedItems(l.items)| as real / TotalItems(l) as real) * 100.0 == 100.0
  {
    ListDetailPage.ItemsPartition(l.items);
    var p, u, t := PurchasedCount(l) as real, |ListDetailPage.UnpurchasedItems(l.items)| as real, TotalItems(l) as real;
    PercentAdds(p, u, t);
    PercentIsHundred(p + u, t);
  }
}

=== FILE: list_detail_page.dfy ===
/**
  The list detail page: the route decides whether a new list is being
  created; the list's name and store can be changed and the list deleted;
  its items are shown split into still-to-buy and purchased.
 */
module ListDetailPage {
  import opened Types
  import opened Seqs
  import AppStore
  import ListsPage
  import AddItemForm

  /** `id === 'new'`; the route parameter may be missing. */
  predicate IsNewList(routeId: Option<string>)
  {
    routeId == Some("new")
  }

  /** `shoppingLists.find(list => list.id === id)`: the first list with the route's id. */
  function ExistingList(lists: seq<ShoppingList>, routeId: Option<string>): (r: Option<ShoppingList>)
    ensures r.None? <==> routeId.None? || forall l :: l in lists ==> l.id != routeId.value
    ensures r.Some? ==> r.value in lists && r.value.id == routeId.value
    ensures r.Some? ==> exists k :: 0 <= k < |lists| && r.value == lists[k] &&
                                    forall j :: 0 <= j < k ==> lists[j].id != routeId.value
  {
    match routeId
    case None => None
    case Some(id) =>
      var k := FindIndex(lists, (l: ShoppingList) => l.id == id);
      if k < 0 then None else Some(lists[k])
  }

  // ----- purchased / still to buy -----

  function IsPurchased(): ShoppingItem -> bool { (it: ShoppingItem) => it.purchased }
  function NotPurchased(): ShoppingItem -> bool { (it: ShoppingItem) => !it.purchased }

  /** `items.filter(item => item.purchased)`. */
  function PurchasedItems(items: seq<ShoppingItem>): (r: seq<ShoppingItem>)
    ensures forall it :: it in r <==> it in items && it.purchased
  {
    Filter(items, IsPurchased())
  }

  /** `items.filter(item => !item.purchased)`. */
  function UnpurchasedItems(items: seq<ShoppingItem>): (r: seq<ShoppingItem>)
    ensures forall it :: it in r <==> it in items && !it.purchased
  {
    Filter(items, NotPurchased())
  }

  /**
    The two groups split the items: their sizes add up, together they hold
    every item exactly as often as the list does, each flag is right, and
    each group keeps the list's order.
   */
  lemma ItemsPartition(items: seq<ShoppingItem>)
    ensures |PurchasedItems(items)| + |UnpurchasedItems(items)| == |items|
    ensures multiset(PurchasedItems(items)) + multiset(UnpurchasedItems(items)) == multiset(items)
    ensures forall it :: it in PurchasedItems(items) ==> it.purchased
    ensures forall it :: it in UnpurchasedItems(items) ==> !it.purchased
    ensures Subsequence(PurchasedItems(items), items) && Subsequence(UnpurchasedItems(items), items)
  {
    FilterPartitionLength(items, IsPurchased(), NotPurchased());
    FilterMultiset(items, IsPurchased());
    FilterMultiset(items, NotPurchased());
    FilterIsSubsequence(items, IsPurchased());
    FilterIsSubsequence(items, NotPurchased());
  }

  /**
    Toggling an item moves it to the other group, flag flipped; every other
    item stays in its group, and the two groups still hold all the items.
   */
  lemma ToggleKeepsGroupSizes(items: seq<ShoppingItem>, itemId: string)
    ensures var t := AppStore.ToggleItems(items, itemId);
            && |PurchasedItems(t)| + |UnpurchasedItems(t)| == |items|
            && (forall it :: it in items && it.id != itemId ==>
                  (it in PurchasedItems(t) <==> it.purchased) && (it in UnpurchasedItems(t) <==> !it.purchased))
            && (forall it :: it in items && it.id == itemId && it.purchased ==>
                  it.(purchased := false) in UnpurchasedItems(t))
            && (forall it :: it in items && it.id == itemId && !it.purchased ==>
                  it.(purchased := true) in PurchasedItems(t))
  {
    var t := AppStore.ToggleItems(items, itemId);
    ItemsPartition(t);
    forall it | it in items
      ensures it.id != itemId ==> it in t
      ensures it.id == itemId ==> it.(purchased := !it.purchased) in t
    {
      var i :| 0 <= i < |items| && items[i] == it;
      assert t[i] in t;
    }
  }

  // ----- editing an existing list -----

  /** Whether the handlers write to the store: only off the new-list route and for a list that exists. */
  predicate Editable(lists: seq<ShoppingList>, routeId: Option<string>)
  {
    !IsNewList(routeId) && ExistingList(lists, routeId).Some?
  }

  function NamePatch(name: string): ListPatch { ListPatch(None, Some(name), None, None, None, None, None) }

  /** `{ store: store || undefined }`: a cleared selection becomes an explicit "no store". */
  function StorePatch(store: Option<Store>): (r: ListPatch)
    ensures r.store == Some(store)
    ensures r.name.None? && r.items.None? && r.id.None?
  {
    ListPatch(None, None, Some(store), None, None, None, None)
  }

  /** `handleNameChange`: renames the route's list when it is editable, and otherwise changes nothing. */
  function HandleNameChange(st: AppStore.AppState, routeId: Option<string>, name: string, now: int): (r: AppStore.AppState)
    ensures !Editable(st.shoppingLists, routeId) ==> r == st
    ensures r.(shoppingLists := st.shoppingLists) == st
    ensures |r.shoppingLists| == |st.shoppingLists|
    ensures Editable(st.shoppingLists, routeId) ==>
              forall i :: 0 <= i < |st.shoppingLists| ==>
                if st.shoppingLists[i].id == routeId.value
                then r.shoppingLists[i] == st.shoppingLists[i].(name := name, updatedAt := now)
                else r.shoppingLists[i] == st.shoppingLists[i]
  {
    if Editable(st.shoppingLists, routeId) then
      AppStore.UpdateShoppingList(st, ExistingList(st.shoppingLists, routeId).value.id, NamePatch(name), now)
    else st
  }

  /** `handleStoreChange`: sets (or clears) the store of the route's list. */
  function HandleStoreChange(st: AppStore.AppState, routeId: Option<string>, store: Option<Store>, now: int): (r: AppStore.AppState)
    ensures !Editable(st.shoppingLists, routeId) ==> r == st
    ensures r.(shoppingLists := st.shoppingLists) == st
    ensures |r.shoppingLists| == |st.shoppingLists|
    ensures Editable(st.shoppingLists, routeId) ==>
              forall i :: 0 <= i < |st.shoppingLists| ==>
                if st.shoppingLists[i].id == routeId.value
                then r.shoppingLists[i] == st.shoppingLists[i].(store := store, updatedAt := now)
                else r.shoppingLists[i] == st.shoppingLists[i]
  {
    if Editable(st.shoppingLists, routeId) then
      AppStore.UpdateShoppingList(st, ExistingList(st.shoppingLists, routeId).value.id, StorePatch(store), now)
    else st
  }

  /** Clearing a list's store takes it off the lists page under every store filter. */
  lemma ClearedStoreHiddenByStoreFilter(st: AppStore.AppState, routeId: Option<string>, now: int, s: Store)
    requires Editable(st.shoppingLists, routeId)
    ensures var r := HandleStoreChange(st, routeId, None, now);
            forall l :: l in ListsPage.VisibleLists(r.shoppingLists, Some(s)) ==> l.id != routeId.value
  {
    var r := HandleStoreChange(st, routeId, None, now);
    forall l | l in r.shoppingLists && l.id == routeId.value
      ensures l.store.None?
    {
      var i :| 0 <= i < |r.shoppingLists| && r.shoppingLists[i] == l;
    }
  }

  /** Setting the store back to what it was restores every list apart from its timestamp. */
  lemma StoreChangeUndone(st: AppStore.AppState, routeId: Option<string>, s1: Option<Store>, now1: int, now2: int)
    requires Editable(st.shoppingLists, routeId)
    requires forall l :: l in st.shoppingLists && l.id == routeId.value ==> l.store == ExistingList(st.shoppingLists, routeId).value.store
    ensures var r := HandleStoreChange(HandleStoreChange(st, routeId, s1, now1), routeId,
                                       ExistingList(st.shoppingLists, routeId).value.store, now2);
            && |r.shoppingLists| == |st.shoppingLists|
            && forall i :: 0 <= i < |st.shoppingLists| ==>
                 r.shoppingLists[i] == if st.shoppingLists[i].id == routeId.value
                                       then st.shoppingLists[i].(updatedAt := now2)
                                       else st.shoppingLists[i]
  {
    var once := HandleStoreChange(st, routeId, s1, now1);
    var target := ExistingList(st.shoppingLists, routeId).value;
    var k := FindIndex(st.shoppingLists, (l: ShoppingList) => l.id == routeId.value);
    assert once.shoppingLists[k].id == routeId.value;
    assert Editable(once.shoppingLists, routeId) by {
      assert once.shoppingLists[k] in once.shoppingLists;
    }
    var r := HandleStoreChange(once, routeId, target.store, now2);
    forall i | 0 <= i < |st.shoppingLists| && st.shoppingLists[i].id == routeId.value
      ensures r.shoppingLists[i] == st.shoppingLists[i].(updatedAt := now2)
    {
      assert st.shoppingLists[i] in st.shoppingLists;
      assert once.shoppingLists[i].id == routeId.value;
    }
  }

  /** `handleDeleteList`: the route's list, and every list sharing its id, is gone. */
  function HandleDeleteList(st: AppStore.AppState, routeId: Option<string>): (r: AppStore.AppState)
    ensures ExistingList(st.shoppingLists, routeId).None? ==> r == st
    ensures ExistingList(st.shoppingLists, routeId).Some? ==>
              && (forall l :: l in r.shoppingLists ==> l.id != routeId.value)
              && (forall l :: l in st.shoppingLists && l.id != routeId.value ==> l in r.shoppingLists)
              && Subsequence(r.shoppingLists, st.shoppingLists)
              && (forall l :: multiset(r.shoppingLists)[l] ==
                                if l.id != routeId.value then multiset(st.shoppingLists)[l] else 0)
              && (st.activeListId != routeId ==> r.activeListId == st.activeListId)
              && (st.activeListId == routeId ==>
                    r.activeListId == (if |r.shoppingLists| > 0 && r.shoppingLists[0].id != ""
                                       then Some(r.shoppingLists[0].id) else None))
    ensures r.(shoppingLists := st.shoppingLists, activeListId := st.activeListId) == st
  {
    match ExistingList(st.shoppingLists, routeId)
    case None => st
    case Some(l) => AppStore.DeleteShoppingList(st, l.id)
  }

  // ----- adding an item -----

  /** `{ items }`: a list update that replaces only the items. */
  function ItemsPatch(items: seq<ShoppingItem>): (r: ListPatch)
    ensures r.items == Some(items)
    ensures r.id.None? && r.name.None? && r.store.None? && r.createdAt.None? && r.shared.None? && r.sharedWith.None?
  {
    ListPatch(None, None, None, Some(items), None, None, None)
  }

  /**
    Submitting the add-item form on this page. The form calls
    `addItemToList` on `existingList?.id || ''` at `now1`; then the page's
    `onAddItem` writes the list's items as they were at render time, plus
    the new item, back through `updateShoppingList` at `now2`. Every list
    sharing the route list's id therefore ends up with the route list's
    items plus the new one. Without a route list only lists with the empty
    id can change.
   */
  function SubmitOnPage(st: AppStore.AppState, routeId: Option<string>, itemId: string, productId: string,
                        quantity: int, unit: Unit, notes: string, now1: int, now2: int): (r: AppStore.AppState)
    ensures r.(shoppingLists := st.shoppingLists) == st
    ensures |r.shoppingLists| == |st.shoppingLists|
    ensures productId == "" ==> r == st
    ensures productId != "" && ExistingList(st.shoppingLists, routeId).Some? ==>
              var l := ExistingList(st.shoppingLists, routeId).value;
              var item := AddItemForm.FormItem(itemId, productId, quantity, unit, notes);
              forall i :: 0 <= i < |st.shoppingLists| ==>
                if st.shoppingLists[i].id == l.id
                then r.shoppingLists[i] == st.shoppingLists[i].(items := l.items + [item], updatedAt := now2)
                else r.shoppingLists[i] == st.shoppingLists[i]
    ensures ExistingList(st.shoppingLists, routeId).None? ==>
              forall i :: 0 <= i < |st.shoppingLists| && st.shoppingLists[i].id != "" ==>
                r.shoppingLists[i] == st.shoppingLists[i]
  {
    var existing := ExistingList(st.shoppingLists, routeId);
    var listId := if existing.Some? then existing.value.id else "";
    var item := AddItemForm.FormItem(itemId, productId, quantity, unit, notes);
    var added := AddItemForm.SubmitItem(st, listId, itemId, productId, quantity, unit, notes, now1);
    if productId == "" || existing.None? then added
    else AppStore.UpdateShoppingList(added, existing.value.id, ItemsPatch(existing.value.items + [item]), now2)
  }

  /**
    When every list with the route list's id holds the same items as it
    (in particular when the id is unique), the page's second write only
    moves the stamp: the whole submit is one `addItemToList` at the later
    time.
   */
  lemma SubmitOnPageIsOneAdd(st: AppStore.AppState, routeId: Option<string>, itemId: string, productId: string,
                             quantity: int, unit: Unit, notes: string, now1: int, now2: int)
    requires ExistingList(st.shoppingLists, routeId).Some?
    requires forall m :: m in st.shoppingLists && m.id == routeId.value ==>
               m.items == ExistingList(st.shoppingLists, routeId).value.items
    ensures SubmitOnPage(st, routeId, itemId, productId, quantity, unit, notes, now1, now2)
            == AddItemForm.SubmitItem(st, routeId.value, itemId, productId, quantity, unit, notes, now2)
  {
    var r := SubmitOnPage(st, routeId, itemId, productId, quantity, unit, notes, now1, now2);
    var s := AddItemForm.SubmitItem(st, routeId.value, itemId, productId, quantity, unit, notes, now2);
    if productId != "" {
      var item := AddItemForm.FormItem(itemId, productId, quantity, unit, notes);
      var l := ExistingList(st.shoppingLists, routeId).value;
      assert s == AppStore.AddItemToList(st, routeId.value, item, now2);
      SameAppendEverywhere(st.shoppingLists, r.shoppingLists, s.shoppingLists, routeId.value, l.items, item, now2);
    }
  }

  /** Lists that all hold `items` get the same result from appending to their own items or to `items`. */
  lemma SameAppendEverywhere(lists: seq<ShoppingList>, a: seq<ShoppingList>, b: seq<ShoppingList>,
                             id: string, items: seq<ShoppingItem>, item: ShoppingItem, now: int)
    requires |a| == |lists| == |b|
    requires forall i :: 0 <= i < |lists| ==>
               if lists[i].id == id then a[i] == lists[i].(items := items + [item], updatedAt := now)
               else a[i] == lists[i]
    requires forall i :: 0 <= i < |lists| && lists[i].id != id ==> b[i] == lists[i]
    requires forall i :: 0 <= i < |lists| && lists[i].id == id ==>
               b[i] == lists[i].(items := lists[i].items + [item], updatedAt := now)
    requires forall m :: m in lists && m.id == id ==> m.items == items
    ensures a == b
  {
    forall i | 0 <= i < |lists|
      ensures a[i] == b[i]
    {
      if lists[i].id == id {
        assert lists[i] in lists;
      }
    }
  }

  // ----- creating a list -----

  /**
    The new-list effect: on the `new` route with no list of that id, an
    empty, unshared list with the form's name and store is appended. The
    two `new Date()` calls arrive as `created` and `updated`; `newId`
    stands for `uuidv4()`.
   */
  function NewListEffect(st: AppStore.AppState, routeId: Option<string>, name: string, store: Option<Store>,
                         newId: string, created: int, updated: int): (r: AppStore.AppState)
    ensures !(IsNewList(routeId) && ExistingList(st.shoppingLists, routeId).None?) ==> r == st
    ensures r.(shoppingLists := st.shoppingLists) == st
    ensures IsNewList(routeId) && ExistingList(st.shoppingLists, routeId).None? ==>
              && |r.shoppingLists| == |st.shoppingLists| + 1
              && r.shoppingLists[..|st.shoppingLists|] == st.shoppingLists
              && r.shoppingLists[|st.shoppingLists|] == ShoppingList(newId, name, store, [], created, updated, false, None)
  {
    if IsNewList(routeId) && ExistingList(st.shoppingLists, routeId).None? then
      AppStore.AddShoppingList(st, ShoppingList(newId, name, store, [], created, updated, false, None))
    else st
  }

  /** Once created under a fresh id, the list is what the redirected route finds. */
  lemma NewListFoundAfterRedirect(st: AppStore.AppState, name: string, store: Option<Store>, newId: string,
                                  created: int, updated: int)
    requires forall l :: l in st.shoppingLists ==> l.id != "new" && l.id != newId
    ensures var r := NewListEffect(st, Some("new"), name, store, newId, created, updated);
            ExistingList(r.shoppingLists, Some(newId)) == Some(ShoppingList(newId, name, store, [], created, updated, false, None))
  {
    var r := NewListEffect(st, Some("new"), name, store, newId, created, updated);
    var lists := r.shoppingLists;
    var n := |st.shoppingLists|;
    forall i | 0 <= i < n
      ensures lists[i].id != newId
    {
      assert lists[i] == st.shoppingLists[i] && st.shoppingLists[i] in st.shoppingLists;
    }
  }
}

=== FILE: lists_page.dfy ===
/**
  The lists page: the shopping lists at the selected store (all lists when
  no store is selected), most recently updated first. The recency order is
  shared with the home page.
 */
module ListsPage {
  import opened Types
  import opened Seqs
  import opened Sorting

  /** `(a, b) => b.updatedAt - a.updatedAt`: later updates first. */
  function RecencyCompare(): (ShoppingList, ShoppingList) -> int
  {
    (a: ShoppingList, b: ShoppingList) => b.updatedAt - a.updatedAt
  }

  /** `[...lists].sort(byRecency)`: a sorted copy, the input is left as it was. */
  function ByRecency(lists: seq<ShoppingList>): (r: seq<ShoppingList>)
    ensures |r| == |lists| && multiset(r) == multiset(lists)
  {
    Sort(lists, RecencyCompare())
  }

  /** The recency order is non-increasing in `updatedAt`. */
  lemma ByRecencyOrdered(lists: seq<ShoppingList>)
    ensures var r := ByRecency(lists);
            forall i, j :: 0 <= i < j < |r| ==> r[i].updatedAt >= r[j].updatedAt
  {
    assert ConsistentComparator(RecencyCompare());
    SortSorted(lists, RecencyCompare());
  }

  function UpdatedAtIs(t: int): ShoppingList -> bool { (l: ShoppingList) => l.updatedAt == t }

  /** Lists updated at the same moment keep their input order. */
  lemma ByRecencyStable(lists: seq<ShoppingList>, t: int)
    ensures Filter(ByRecency(lists), UpdatedAtIs(t)) == Filter(lists, UpdatedAtIs(t))
  {
    SortStable(lists, RecencyCompare(), UpdatedAtIs(t));
  }

  function AtStore(s: Store): ShoppingList -> bool { (l: ShoppingList) => l.store == Some(s) }

  /** `selectedStore ? lists.filter(list => list.store === selectedStore) : lists`. */
  function ListsAtStore(lists: seq<ShoppingList>, selected: Option<Store>): (r: seq<ShoppingList>)
    ensures selected.None? ==> r == lists
    ensures selected.Some? ==> forall l :: l in r <==> l in lists && l.store == selected
    ensures Subsequence(r, lists)
    ensures selected.Some? ==> forall l :: multiset(r)[l] == if l.store == selected then multiset(lists)[l] else 0
  {
    match selected
    case None =>
      FilterKeepsAll(lists, (l: ShoppingList) => true);
      FilterIsSubsequence(lists, (l: ShoppingList) => true);
      lists
    case Some(s) =>
      FilterIsSubsequence(lists, AtStore(s));
      FilterMultiset(lists, AtStore(s));
      Filter(lists, AtStore(s))
  }

  /**
    The lists the page shows: exactly the lists at the selected store (a
    list without a store never passes a selected store), rearranged.
   */
  function VisibleLists(lists: seq<ShoppingList>, selected: Option<Store>): (r: seq<ShoppingList>)
    ensures multiset(r) == multiset(ListsAtStore(lists, selected))
    ensures forall l :: l in r <==> l in lists && (selected.Some? ==> l.store == selected)
  {
    var filtered := ListsAtStore(lists, selected);
    SortMembers(filtered, RecencyCompare());
    ByRecency(filtered)
  }

  /** The page's lists are ordered most recent first. */
  lemma VisibleListsOrdered(lists: seq<ShoppingList>, selected: Option<Store>)
    ensures var r := VisibleLists(lists, selected);
            forall i, j :: 0 <= i < j < |r| ==> r[i].updatedAt >= r[j].updatedAt
  {
    ByRecencyOrdered(ListsAtStore(lists, selected));
  }
}

=== FILE: search_page.dfy ===
/**
  The search page: the catalog products whose name or category contains
  the term (case-insensitively), restricted to products in stock at the
  selected store when one is selected. Brands and tags are not searched.
 */
module SearchPage {
  import opened Types
  import opened Strings
  import opened Seqs
  import opened Catalog

  /** `matchesSearch`: name or category contains the term. */
  predicate MatchesSearch(p: Product, term: string)
  {
    NameHasTerm(p, term) || CategoryHasTerm(p, term)
  }

  predicate SearchAccepts(p: Product, term: string, selected: Option<Store>)
  {
    MatchesSearch(p, term) && StoreMatches(p, selected)
  }

  function AcceptedBy(term: string, selected: Option<Store>): Product -> bool
  {
    (p: Product) => SearchAccepts(p, term, selected)
  }

  function InStoreOnly(selected: Option<Store>): Product -> bool
  {
    (p: Product) => StoreMatches(p, selected)
  }

  function MatchingOnly(term: string): Product -> bool
  {
    (p: Product) => MatchesSearch(p, term)
  }

  /** `filteredProducts`: the catalog-order subsequence of the products passing both tests. */
  function SearchResults(products: seq<Product>, term: string, selected: Option<Store>): (r: seq<Product>)
    ensures forall p :: p in r <==> p in products && MatchesSearch(p, term) && StoreMatches(p, selected)
    ensures Subsequence(r, products)
    ensures forall p :: multiset(r)[p] == if SearchAccepts(p, term, selected) then multiset(products)[p] else 0
  {
    FilterIsSubsequence(products, AcceptedBy(term, selected));
    FilterMultiset(products, AcceptedBy(term, selected));
    Filter(products, AcceptedBy(term, selected))
  }

  /** The empty term matches everything, so only the store test remains. */
  lemma EmptyTermKeepsStoreFiltered(products: seq<Product>, selected: Option<Store>)
    ensures SearchResults(products, "", selected) == Filter(products, InStoreOnly(selected))
  {
    assert Lower("") == "";
    FilterExtensional(products, AcceptedBy("", selected), InStoreOnly(selected));
  }

  /** Without a selected store only the search test remains. */
  lemma NoStoreKeepsSearchFiltered(products: seq<Product>, term: string)
    ensures SearchResults(products, term, None) == Filter(products, MatchingOnly(term))
  {
    FilterExtensional(products, AcceptedBy(term, None), MatchingOnly(term));
  }

  /** A product that matches the term only through a brand or a tag is not found. */
  lemma BrandOnlyMatchExcluded(products: seq<Product>, p: Product, term: string, selected: Option<Store>)
    requires !NameHasTerm(p, term) && !CategoryHasTerm(p, term)
    ensures p !in SearchResults(products, term, selected)
  {
  }

  /** A longer term that contains a shorter one matches only products the shorter one matches. */
  lemma MatchesSearchNarrows(p: Product, t: string, t2: string)
    requires Contains(t2, t) && MatchesSearch(p, t2)
    ensures MatchesSearch(p, t)
  {
    ContainsLower(t2, t);
    if NameHasTerm(p, t2) {
      ContainsTransitive(Lower(p.name), Lower(t2), Lower(t));
    } else {
      ContainsTransitive(Lower(p.category), Lower(t2), Lower(t));
    }
  }

  /**
    Typing more narrows the results: when `t` is a substring of `t2`, the
    results for `t2` are exactly the results for `t` that also match `t2`,
    in the same order.
   */
  lemma SearchAntiMonotone(products: seq<Product>, t: string, t2: string, selected: Option<Store>)
    requires Contains(t2, t)
    ensures Filter(SearchResults(products, t, selected), AcceptedBy(t2, selected)) == SearchResults(products, t2, selected)
    ensures forall p :: p in SearchResults(products, t2, selected) ==> p in SearchResults(products, t, selected)
  {
    forall p: Product
      ensures AcceptedBy(t2, selected)(p) == (AcceptedBy(t, selected)(p) && AcceptedBy(t2, selected)(p))
    {
      if SearchAccepts(p, t2, selected) {
        MatchesSearchNarrows(p, t, t2);
      }
    }
    FilterFilter(products, AcceptedBy(t, selected), AcceptedBy(t2, selected), AcceptedBy(t2, selected));
  }
}

=== FILE: seqs.dfy ===
/**
  The array combinators the app is written with, over immutable sequences:
  `filter`, `map` restricted to matching elements, and `findIndex`.
 */
module Seqs {

  /** `r` is an order-preserving subsequence of `s`. */
  ghost predicate Subsequence<T(!new)>(r: seq<T>, s: seq<T>)
    decreases |s|
  {
    |r| == 0 ||
    (|s| > 0 && ((r[0] == s[0] && Subsequence(r[1..], s[1..])) || Subsequence(r, s[1..])))
  }

  /** `s.filter(p)`: the elements satisfying `p`, in their original order. */
  function Filter<T(!new)>(s: seq<T>, p: T -> bool): (r: seq<T>)
    ensures |r| <= |s|
    ensures forall x :: x in r <==> x in s && p(x)
  {
    if |s| == 0 then [] else (if p(s[0]) then [s[0]] else []) + Filter(s[1..], p)
  }

  /** The filter keeps the order of what it keeps. */
  lemma {:induction false} FilterIsSubsequence<T(!new)>(s: seq<T>, p: T -> bool)
    ensures Subsequence(Filter(s, p), s)
    decreases |s|
  {
    if |s| > 0 {
      FilterIsSubsequence(s[1..], p);
      var r := Filter(s, p);
      if p(s[0]) {
        assert r[0] == s[0] && r[1..] == Filter(s[1..], p);
      } else {
        assert r == Filter(s[1..], p);
      }
    }
  }

  /** No element occurs twice. */
  ghost predicate Distinct<T>(s: seq<T>)
  {
    forall i, j :: 0 <= i < j < |s| ==> s[i] != s[j]
  }

  /** Filtering a sequence without repeats gives one without repeats. */
  lemma {:induction false} FilterKeepsDistinct<T(!new)>(s: seq<T>, p: T -> bool)
    requires Distinct(s)
    ensures Distinct(Filter(s, p))
    decreases |s|
  {
    if |s| > 0 {
      assert Distinct(s[1..]);
      FilterKeepsDistinct(s[1..], p);
      assert s[0] !in s[1..];
      assert s[0] !in Filter(s[1..], p);
    }
  }

  /** The filter keeps every copy of an element that passes and no copy of one that fails. */
  lemma {:induction false} FilterMultiset<T(!new)>(s: seq<T>, p: T -> bool)
    ensures forall x :: multiset(Filter(s, p))[x] == if p(x) then multiset(s)[x] else 0
    decreases |s|
  {
    if |s| > 0 {
      FilterMultiset(s[1..], p);
      assert s == [s[0]] + s[1..];
      assert multiset(s) == multiset([s[0]]) + multiset(s[1..]);
    }
  }

  lemma {:induction false} FilterConcat<T(!new)>(a: seq<T>, b: seq<T>, p: T -> bool)
    ensures Filter(a + b, p) == Filter(a, p) + Filter(b, p)
    decreases |a|
  {
    if |a| == 0 {
      assert a + b == b;
    } else {
      assert (a + b)[1..] == a[1..] + b;
      FilterConcat(a[1..], b, p);
    }
  }

  /** Filtering with two predicates that agree everywhere gives the same sequence. */
  lemma {:induction false} FilterExtensional<T(!new)>(s: seq<T>, p: T -> bool, q: T -> bool)
    requires forall x :: p(x) == q(x)
    ensures Filter(s, p) == Filter(s, q)
    decreases |s|
  {
    if |s| > 0 {
      FilterExtensional(s[1..], p, q);
    }
  }

  /** Two filters in a row are one filter by the conjunction. */
  lemma {:induction false} FilterFilter<T(!new)>(s: seq<T>, p: T -> bool, q: T -> bool, pq: T -> bool)
    requires forall x :: pq(x) == (p(x) && q(x))
    ensures Filter(Filter(s, p), q) == Filter(s, pq)
    decreases |s|
  {
    if |s| > 0 {
      FilterFilter(s[1..], p, q, pq);
      var fp := Filter(s, p);
      if p(s[0]) {
        assert fp == [s[0]] + Filter(s[1..], p);
        assert fp[0] == s[0] && fp[1..] == Filter(s[1..], p);
        assert Filter(fp, q) == (if q(fp[0]) then [fp[0]] else []) + Filter(fp[1..], q);
      } else {
        assert !pq(s[0]);
        assert fp == Filter(s[1..], p);
        assert Filter(s, pq) == [] + Filter(s[1..], pq);
      }
    }
  }

  /** `filter` is idempotent. */
  lemma FilterIdempotent<T(!new)>(s: seq<T>, p: T -> bool)
    ensures Filter(Filter(s, p), p) == Filter(s, p)
  {
    FilterFilter(s, p, p, p);
  }

  /** A filter that every element passes returns the sequence unchanged. */
  lemma {:induction false} FilterKeepsAll<T(!new)>(s: seq<T>, p: T -> bool)
    requires forall i :: 0 <= i < |s| ==> p(s[i])
    ensures Filter(s, p) == s
    decreases |s|
  {
    if |s| > 0 {
      FilterKeepsAll(s[1..], p);
    }
  }

  /** A predicate and its negation split a sequence into two parts of complementary size. */
  lemma {:induction false} FilterPartitionLength<T(!new)>(s: seq<T>, p: T -> bool, q: T -> bool)
    requires forall x :: q(x) == !p(x)
    ensures |Filter(s, p)| + |Filter(s, q)| == |s|
    decreases |s|
  {
    if |s| > 0 {
      FilterPartitionLength(s[1..], p, q);
    }
  }

  /** The filter keeps every element exactly when its length is the original length. */
  lemma {:induction false} FilterFullLength<T(!new)>(s: seq<T>, p: T -> bool)
    ensures |Filter(s, p)| == |s| <==> forall i :: 0 <= i < |s| ==> p(s[i])
    decreases |s|
  {
    if |s| > 0 {
      FilterFullLength(s[1..], p);
      if !p(s[0]) {
        assert |Filter(s, p)| <= |s[1..]|;
      } else if |Filter(s, p)| == |s| {
        forall i | 0 <= i < |s|
          ensures p(s[i])
        {
          if i > 0 {
            assert s[i] == s[1..][i - 1];
          }
        }
      } else {
        assert !(forall i :: 0 <= i < |s[1..]| ==> p(s[1..][i]));
        var i :| 0 <= i < |s[1..]| && !p(s[1..][i]);
        assert !p(s[i + 1]);
      }
    }
  }

  /**
    `s.map(x => p(x) ? f(x) : x)`: elements satisfying `p` are replaced by
    their image under `f`; the others, and the length, stay as they were.
   */
  function MapWhere<T(!new)>(s: seq<T>, p: T -> bool, f: T -> T): (r: seq<T>)
    ensures |r| == |s|
    ensures forall i :: 0 <= i < |s| && !p(s[i]) ==> r[i] == s[i]
    ensures forall i :: 0 <= i < |s| && p(s[i]) ==> r[i] == f(s[i])
  {
    if |s| == 0 then [] else [if p(s[0]) then f(s[0]) else s[0]] + MapWhere(s[1..], p, f)
  }

  /** The first element the filter keeps is the element `findIndex` finds. */
  lemma {:induction false} FilterHeadIsFindIndex<T(!new)>(s: seq<T>, p: T -> bool)
    ensures |Filter(s, p)| == 0 <==> FindIndex(s, p) == -1
    ensures |Filter(s, p)| > 0 ==> Filter(s, p)[0] == s[FindIndex(s, p)]
    decreases |s|
  {
    if |s| > 0 && !p(s[0]) {
      FilterHeadIsFindIndex(s[1..], p);
      assert Filter(s, p) == Filter(s[1..], p);
      if FindIndex(s[1..], p) != -1 {
        assert s[1..][FindIndex(s[1..], p)] == s[FindIndex(s, p)];
      }
    }
  }

  /** `s.findIndex(p)`: the first position satisfying `p`, or -1 when there is none. */
  function FindIndex<T(!new)>(s: seq<T>, p: T -> bool): (r: int)
    ensures -1 <= r < |s|
    ensures r == -1 <==> forall i :: 0 <= i < |s| ==> !p(s[i])
    ensures 0 <= r ==> p(s[r]) && forall i :: 0 <= i < r ==> !p(s[i])
  {
    if |s| == 0 then -1
    else if p(s[0]) then 0
    else
      var k := FindIndex(s[1..], p);
      if k == -1 then -1 else k + 1
  }
}

=== FILE: shop_page.dfy ===
/**
  The shop page's product pipeline: a plain case-insensitive substring
  search, an exact category filter, an in-stock-at-store filter, and a
  sort by name (through an abstract locale collation), by price at the
  store in use, or by popularity (how many stores have it in stock), in
  either direction.
 */
module ShopPage {
  import opened Types
  import opened Strings
  import opened Seqs
  import opened Sorting
  import opened Catalog
  import Fuzzy
  import AddItemForm
  import AppStore

  datatype SortOption = ByName | ByPrice | ByPopularity
  datatype SortDirection = Asc | Desc

  /** The page's filter controls. */
  datatype Controls = Controls(
    searchTerm: string,
    selectedCategory: Option<string>,
    sortOption: SortOption,
    sortDirection: SortDirection)

  /** `selectedStore || user.preferredStore || 'Woolworths'`. */
  function StoreToUse(selected: Option<Store>, preferred: Option<Store>): (r: Store)
    ensures selected.Some? ==> r == selected.value
    ensures selected.None? && preferred.Some? ==> r == preferred.value
    ensures selected.None? && preferred.None? ==> r == Woolworths
  {
    match selected
    case Some(s) => s
    case None => preferred.GetOr(Woolworths)
  }

  /** The search test: name, category, some brand or some tag contains the term; no typo tolerance. */
  predicate SearchHit(p: Product, term: string)
  {
    || NameHasTerm(p, term)
    || CategoryHasTerm(p, term)
    || AnyContains(p.brands, Lower(term))
    || AnyContains(p.tags, Lower(term))
  }

  function Searching(term: string): Product -> bool { (p: Product) => SearchHit(p, term) }

  /** `a.stores[storeToUse]?.price || 0`. */
  function PriceAt(p: Product, s: Store): (r: int)
    ensures s in p.stores ==> r == p.stores[s].price
    ensures s !in p.stores ==> r == 0
  {
    if s in p.stores then p.stores[s].price else 0
  }

  /**
    `Object.values(a.stores).filter(s => s.inStock).length`: how many of the
    four stores have an entry for the product that is in stock.
   */
  function Availability(p: Product): (r: nat)
    ensures r == StockedCount(p, Woolworths) + StockedCount(p, Coles) + StockedCount(p, Aldi) + StockedCount(p, IGA)
    ensures r <= 4
  {
    StoresStockingCount(p);
    |StoresStocking(p)|
  }

  /**
    The comparator handed to `sort` for a sort option and direction: `a`
    may come before `b` exactly when its key is not beyond `b`'s in the
    chosen direction.
   */
  function ShopComparator(opt: SortOption, dir: SortDirection, store: Store,
                          collate: (string, string) -> int): (r: (Product, Product) -> int)
    ensures opt == ByName && dir == Asc ==> forall a, b :: r(a, b) <= 0 <==> collate(a.name, b.name) <= 0
    ensures opt == ByName && dir == Desc ==> forall a, b :: r(a, b) <= 0 <==> collate(b.name, a.name) <= 0
    ensures opt == ByPrice && dir == Asc ==> forall a, b :: r(a, b) <= 0 <==> PriceAt(a, store) <= PriceAt(b, store)
    ensures opt == ByPrice && dir == Desc ==> forall a, b :: r(a, b) <= 0 <==> PriceAt(a, store) >= PriceAt(b, store)
    ensures opt == ByPopularity && dir == Asc ==> forall a, b :: r(a, b) <= 0 <==> Availability(a) <= Availability(b)
    ensures opt == ByPopularity && dir == Desc ==> forall a, b :: r(a, b) <= 0 <==> Availability(a) >= Availability(b)
  {
    match opt
    case ByName =>
      if dir == Asc then (a: Product, b: Product) => collate(a.name, b.name)
      else (a: Product, b: Product) => collate(b.name, a.name)
    case ByPrice =>
      if dir == Asc then (a: Product, b: Product) => PriceAt(a, store) - PriceAt(b, store)
      else (a: Product, b: Product) => PriceAt(b, store) - PriceAt(a, store)
    case ByPopularity =>
      if dir == Asc then (a: Product, b: Product) => Availability(a) - Availability(b)
      else (a: Product, b: Product) => Availability(b) - Availability(a)
  }

  /** The three filters in the order the page applies them; each is skipped when its control is empty. */
  function ShopFiltered(products: seq<Product>, c: Controls, selectedStore: Option<Store>): seq<Product>
  {
    var bySearch := if c.searchTerm != "" then Filter(products, Searching(c.searchTerm)) else products;
    var byCategory := if CategoryFilterOn(c.selectedCategory)
                      then Filter(bySearch, InCategory(c.selectedCategory.value)) else bySearch;
    if selectedStore.Some? then Filter(byCategory, StockedAt(selectedStore.value)) else byCategory
  }

  /** What the three filters keep, as one test. */
  predicate ShopAccepts(p: Product, c: Controls, selectedStore: Option<Store>)
  {
    && (c.searchTerm != "" ==> SearchHit(p, c.searchTerm))
    && (CategoryFilterOn(c.selectedCategory) ==> p.category == c.selectedCategory.value)
    && StoreMatches(p, selectedStore)
  }

  function AcceptedBy(c: Controls, selectedStore: Option<Store>): Product -> bool
  {
    (p: Product) => ShopAccepts(p, c, selectedStore)
  }

  function SearchStep(c: Controls): Product -> bool
  {
    (p: Product) => c.searchTerm != "" ==> SearchHit(p, c.searchTerm)
  }

  function CategoryStep(c: Controls): Product -> bool
  {
    (p: Product) => (c.searchTerm != "" ==> SearchHit(p, c.searchTerm))
                    && (CategoryFilterOn(c.selectedCategory) ==> p.category == c.selectedCategory.value)
  }

  /** The staged filters are one filter of the catalog by `ShopAccepts`. */
  lemma ShopFilteredIsOneFilter(products: seq<Product>, c: Controls, selectedStore: Option<Store>)
    ensures ShopFiltered(products, c, selectedStore) == Filter(products, AcceptedBy(c, selectedStore))
  {
    var bySearch := if c.searchTerm != "" then Filter(products, Searching(c.searchTerm)) else products;
    assert bySearch == Filter(products, SearchStep(c)) by {
      if c.searchTerm != "" {
        FilterExtensional(products, Searching(c.searchTerm), SearchStep(c));
      } else {
        FilterKeepsAll(products, SearchStep(c));
      }
    }
    var byCategory := if CategoryFilterOn(c.selectedCategory)
                      then Filter(bySearch, InCategory(c.selectedCategory.value)) else bySearch;
    assert byCategory == Filter(products, CategoryStep(c)) by {
      if CategoryFilterOn(c.selectedCategory) {
        FilterFilter(products, SearchStep(c), InCategory(c.selectedCategory.value), CategoryStep(c));
      } else {
        FilterExtensional(products, SearchStep(c), CategoryStep(c));
      }
    }
    if selectedStore.Some? {
      FilterFilter(products, CategoryStep(c), StockedAt(selectedStore.value), AcceptedBy(c, selectedStore));
    } else {
      FilterExtensional(products, CategoryStep(c), AcceptedBy(c, selectedStore));
    }
  }

  /**
    `filterAndSortProducts`: nothing while loading; otherwise the filtered
    copy of the catalog, sorted. The result is a rearrangement of exactly
    the catalog products the filters accept.
   */
  function ShopResults(isLoading: bool, products: seq<Product>, c: Controls, selectedStore: Option<Store>,
                       preferred: Option<Store>, collate: (string, string) -> int): (r: seq<Product>)
    ensures isLoading ==> r == []
    ensures !isLoading ==> multiset(r) == multiset(Filter(products, AcceptedBy(c, selectedStore)))
    ensures forall p :: p in r <==> !isLoading && p in products && ShopAccepts(p, c, selectedStore)
  {
    if isLoading then []
    else
      ShopFilteredIsOneFilter(products, c, selectedStore);
      var cmp := ShopComparator(c.sortOption, c.sortDirection, StoreToUse(selectedStore, preferred), collate);
      SortMembers(ShopFiltered(products, c, selectedStore), cmp);
      Sort(ShopFiltered(products, c, selectedStore), cmp)
  }

  lemma NumericComparatorsConsistent(opt: SortOption, dir: SortDirection, store: Store, collate: (string, string) -> int)
    requires opt != ByName
    ensures ConsistentComparator(ShopComparator(opt, dir, store, collate))
  {
  }

  lemma NameComparatorConsistent(dir: SortDirection, store: Store, collate: (string, string) -> int)
    requires ConsistentComparator(collate)
    ensures ConsistentComparator(ShopComparator(ByName, dir, store, collate))
  {
    var cmp := ShopComparator(ByName, dir, store, collate);
    forall a: Product, b: Product
      ensures cmp(a, b) < 0 <==> cmp(b, a) > 0
    {
      if dir == Asc {
        assert collate(a.name, b.name) < 0 <==> collate(b.name, a.name) > 0;
      } else {
        assert collate(b.name, a.name) < 0 <==> collate(a.name, b.name) > 0;
      }
    }
    forall a: Product, b: Product, c: Product | cmp(a, b) <= 0 && cmp(b, c) <= 0
      ensures cmp(a, c) <= 0
    {
      if dir == Asc {
        assert collate(a.name, b.name) <= 0 && collate(b.name, c.name) <= 0;
      } else {
        assert collate(c.name, b.name) <= 0 && collate(b.name, a.name) <= 0;
      }
    }
  }

  /** Sorting by price: ascending is non-decreasing and descending non-increasing in the price at the store in use. */
  lemma ShopSortedByPrice(products: seq<Product>, c: Controls, selectedStore: Option<Store>,
                          preferred: Option<Store>, collate: (string, string) -> int)
    requires c.sortOption == ByPrice
    ensures var r := ShopResults(false, products, c, selectedStore, preferred, collate);
            var s := StoreToUse(selectedStore, preferred);
            && (c.sortDirection == Asc ==> forall i, j :: 0 <= i < j < |r| ==> PriceAt(r[i], s) <= PriceAt(r[j], s))
            && (c.sortDirection == Desc ==> forall i, j :: 0 <= i < j < |r| ==> PriceAt(r[i], s) >= PriceAt(r[j], s))
  {
    var s := StoreToUse(selectedStore, preferred);
    NumericComparatorsConsistent(ByPrice, c.sortDirection, s, collate);
    SortSorted(ShopFiltered(products, c, selectedStore), ShopComparator(ByPrice, c.sortDirection, s, collate));
  }

  /** Sorting by popularity orders by the number of stores stocking the product. */
  lemma ShopSortedByPopularity(products: seq<Product>, c: Controls, selectedStore: Option<Store>,
                               preferred: Option<Store>, collate: (string, string) -> int)
    requires c.sortOption == ByPopularity
    ensures var r := ShopResults(false, products, c, selectedStore, preferred, collate);
            && (c.sortDirection == Asc ==> forall i, j :: 0 <= i < j < |r| ==> Availability(r[i]) <= Availability(r[j]))
            && (c.sortDirection == Desc ==> forall i, j :: 0 <= i < j < |r| ==> Availability(r[i]) >= Availability(r[j]))
  {
    var s := StoreToUse(selectedStore, preferred);
    NumericComparatorsConsistent(ByPopularity, c.sortDirection, s, collate);
    SortSorted(ShopFiltered(products, c, selectedStore), ShopComparator(ByPopularity, c.sortDirection, s, collate));
  }

  /**
    Sorting by name orders by the collation, with the arguments swapped for
    descending order, provided the collation is a consistent comparator.
   */
  lemma ShopSortedByName(products: seq<Product>, c: Controls, selectedStore: Option<Store>,
                         preferred: Option<Store>, collate: (string, string) -> int)
    requires c.sortOption == ByName
    requires ConsistentComparator(collate)
    ensures var r := ShopResults(false, products, c, selectedStore, preferred, collate);
            && (c.sortDirection == Asc ==> forall i, j :: 0 <= i < j < |r| ==> collate(r[i].name, r[j].name) <= 0)
            && (c.sortDirection == Desc ==> forall i, j :: 0 <= i < j < |r| ==> collate(r[j].name, r[i].name) <= 0)
  {
    var s := StoreToUse(selectedStore, preferred);
    NameComparatorConsistent(c.sortDirection, s, collate);
    SortSorted(ShopFiltered(products, c, selectedStore), ShopComparator(ByName, c.sortDirection, s, collate));
  }

  function PriceIs(s: Store, k: int): Product -> bool { (p: Product) => PriceAt(p, s) == k }
  function AvailabilityIs(k: int): Product -> bool { (p: Product) => Availability(p) == k }

  /** Products whose names collate equal to `n`. */
  function CollatesAs(n: string, collate: (string, string) -> int): Product -> bool
  {
    (p: Product) => collate(p.name, n) == 0
  }

  /** Stability of the price and popularity sorts: products with the same key keep their catalog order. */
  lemma ShopNumericSortStable(products: seq<Product>, c: Controls, selectedStore: Option<Store>,
                              preferred: Option<Store>, collate: (string, string) -> int, k: int)
    requires c.sortOption != ByName
    ensures var r := ShopResults(false, products, c, selectedStore, preferred, collate);
            var accepted := Filter(products, AcceptedBy(c, selectedStore));
            var s := StoreToUse(selectedStore, preferred);
            && (c.sortOption == ByPrice ==> Filter(r, PriceIs(s, k)) == Filter(accepted, PriceIs(s, k)))
            && (c.sortOption == ByPopularity ==> Filter(r, AvailabilityIs(k)) == Filter(accepted, AvailabilityIs(k)))
  {
    var s := StoreToUse(selectedStore, preferred);
    var cmp := ShopComparator(c.sortOption, c.sortDirection, s, collate);
    ShopFilteredIsOneFilter(products, c, selectedStore);
    if c.sortOption == ByPrice {
      SortStable(ShopFiltered(products, c, selectedStore), cmp, PriceIs(s, k));
    } else {
      SortStable(ShopFiltered(products, c, selectedStore), cmp, AvailabilityIs(k));
    }
  }

  /** Stability of the name sort: products whose names collate equal keep their catalog order. */
  lemma ShopNameSortStable(products: seq<Product>, c: Controls, selectedStore: Option<Store>,
                           preferred: Option<Store>, collate: (string, string) -> int, n: string)
    requires c.sortOption == ByName
    requires ConsistentComparator(collate)
    ensures var r := ShopResults(false, products, c, selectedStore, preferred, collate);
            Filter(r, CollatesAs(n, collate)) == Filter(Filter(products, AcceptedBy(c, selectedStore)), CollatesAs(n, collate))
  {
    var s := StoreToUse(selectedStore, preferred);
    var cmp := ShopComparator(ByName, c.sortDirection, s, collate);
    var group := CollatesAs(n, collate);
    assert Tied(group, cmp) by {
      forall a: Product, b: Product | group(a) && group(b)
        ensures cmp(a, b) <= 0
      {
        assert collate(n, a.name) == 0 && collate(n, b.name) == 0;
      }
    }
    ShopFilteredIsOneFilter(products, c, selectedStore);
    SortStable(ShopFiltered(products, c, selectedStore), cmp, group);
  }

  /**
    Every product the page shows for a non-empty term is a catalog product
    whose name, category, some brand or some tag has the lower-cased term as
    a plain substring.
   */
  lemma ShopSearchIsPlainSubstring(products: seq<Product>, c: Controls, selectedStore: Option<Store>,
                                   preferred: Option<Store>, collate: (string, string) -> int, p: Product)
    requires c.searchTerm != ""
    requires p in ShopResults(false, products, c, selectedStore, preferred, collate)
    ensures p in products
    ensures || Contains(Lower(p.name), Lower(c.searchTerm))
            || Contains(Lower(p.category), Lower(c.searchTerm))
            || AnyContains(p.brands, Lower(c.searchTerm))
            || AnyContains(p.tags, Lower(c.searchTerm))
  {
  }

  /**
    The shop search has none of the add-item dropdown's typo tolerance:
    "banans" finds "Bananas" in the dropdown, but the shop page leaves it out.
   */
  lemma ShopSearchHasNoTypoTolerance(products: seq<Product>, c: Controls, selectedStore: Option<Store>,
                                     preferred: Option<Store>, collate: (string, string) -> int, p: Product)
    requires p.name == "Bananas" && p.category == "Fruit" && p.brands.None? && p.tags.None?
    requires c.searchTerm == "banans"
    ensures AddItemForm.DropdownMatch(p, c.searchTerm)
    ensures p !in ShopResults(false, products, c, selectedStore, preferred, collate)
  {
    Fuzzy.FuzzyMatchToleratesTypo(p.name, c.searchTerm);
    assert !Contains(Lower(p.category), Lower(c.searchTerm)) by {
      assert |Lower(p.category)| == 5 && |Lower(c.searchTerm)| == 6;
    }
  }

  // ----- controls -----

  /** `toggleSortDirection`. */
  function ToggleSortDirection(dir: SortDirection): (r: SortDirection)
    ensures r != dir
  {
    if dir == Asc then Desc else Asc
  }

  /** Toggling the direction twice gives it back. */
  lemma ToggleSortDirectionInvolution(dir: SortDirection)
    ensures ToggleSortDirection(ToggleSortDirection(dir)) == dir
  {
  }

  /**
    `clearFilters`: the term, category, sort option and direction return to
    their initial values. The selected store is reset later by a timer,
    which is outside this model.
   */
  function ClearFilters(c: Controls): (r: Controls)
    ensures r.searchTerm == [] && r.selectedCategory.None?
    ensures r.sortOption == ByName && r.sortDirection == Asc
  {
    Controls("", None, ByName, Asc)
  }

  /**
    With the filters cleared and no store selected, the page shows the
    whole catalog, rearranged.
   */
  lemma ClearedShowsWholeCatalog(products: seq<Product>, c: Controls, preferred: Option<Store>,
                                 collate: (string, string) -> int)
    ensures multiset(ShopResults(false, products, ClearFilters(c), None, preferred, collate)) == multiset(products)
  {
    var cleared := ClearFilters(c);
    FilterKeepsAll(products, AcceptedBy(cleared, None));
  }

  // ----- adding to the cart -----

  /** The cart entry `handleAddToCart` builds; `cartId` stands for `cart-${Date.now()}`. */
  function CartItemFor(p: Product, cartId: string, store: Store): (r: ShoppingItem)
    ensures r.id == cartId
    ensures r.productId == p.id && r.quantity == 1 && !r.purchased && r.notes.None?
    ensures store in p.stores ==> r.unit == p.stores[store].unit
    ensures store !in p.stores ==> r.unit == Each
  {
    ShoppingItem(cartId, p.id, 1, if store in p.stores then p.stores[store].unit else Each, false, None)
  }

  /** `handleAddToCart`: one unit of the product, in its unit at the store in use. */
  function AddToCartFromShop(st: AppStore.AppState, p: Product, cartId: string, store: Store): (r: AppStore.AppState)
    ensures r.(user := st.user) == st && r.user.(cart := st.user.cart) == st.user
    ensures r.user.cart.Some?
    ensures exists it :: it in r.user.cart.value && it.productId == p.id
    ensures |r.user.cart.value| <= |st.user.cart.GetOr([])| + 1
    ensures (forall it :: it in st.user.cart.GetOr([]) ==> it.productId != p.id) ==>
              r.user.cart.value == st.user.cart.GetOr([]) + [CartItemFor(p, cartId, store)]
    ensures var prev := st.user.cart.GetOr([]);
            var k := FindIndex(prev, (it: ShoppingItem) => it.productId == p.id);
            k >= 0 ==>
              && |r.user.cart.value| == |prev|
              && r.user.cart.value[k] == prev[k].(quantity := prev[k].quantity + 1)
              && forall i :: 0 <= i < |prev| && i != k ==> r.user.cart.value[i] == prev[i]
  {
    AppStore.AddToCart(st, CartItemFor(p, cartId, store))
  }

  /**
    Adding a product the cart does not hold twice leaves one new entry,
    at the end, with quantity 2.
   */
  lemma AddToCartTwice(st: AppStore.AppState, p: Product, id1: string, id2: string, store: Store)
    requires forall it :: it in st.user.cart.GetOr([]) ==> it.productId != p.id
    ensures var cart := AddToCartFromShop(AddToCartFromShop(st, p, id1, store), p, id2, store).user.cart.value;
            var prev := st.user.cart.GetOr([]);
            && |cart| == |prev| + 1
            && cart[..|prev|] == prev
            && cart[|prev|].productId == p.id && cart[|prev|].id == id1 && cart[|prev|].quantity == 2
  {
    var prev := st.user.cart.GetOr([]);
    var once := AddToCartFromShop(st, p, id1, store);
    var item1 := CartItemFor(p, id1, store);
    var item2 := CartItemFor(p, id2, store);
    var match1 := (it: ShoppingItem) => it.productId == item1.productId;
    assert FindIndex(prev, match1) == -1 by {
      forall i | 0 <= i < |prev| ensures !match1(prev[i]) {
        assert prev[i] in prev;
      }
    }
    assert once.user.cart.value == prev + [item1];
    var cart1 := once.user.cart.value;
    var match2 := (it: ShoppingItem) => it.productId == item2.productId;
    assert FindIndex(cart1, match2) == |prev| by {
      assert cart1[|prev|] == item1 && match2(item1);
      forall i | 0 <= i < |prev| ensures !match2(cart1[i]) {
        assert cart1[i] == prev[i] && prev[i] in prev;
      }
    }
  }
}

=== FILE: sorting.dfy ===
/**
  `Array.prototype.sort` with a comparator, which ECMAScript 2019 and later
  require to be stable (section 23.1.3.30 of ECMA-262). It is modelled as a
  stable insertion sort: a comparator result `<= 0` lets the left argument
  stay in front, so an element is placed before the first later-sorted
  element it does not exceed.
 */
module Sorting {
  import opened Seqs

  /**
    A comparator in ECMAScript's sense of "consistent": the sign flips when
    the arguments are swapped, and "not greater" is transitive.
   */
  ghost predicate ConsistentComparator<T(!new)>(cmp: (T, T) -> int)
  {
    && (forall a, b :: cmp(a, b) < 0 <==> cmp(b, a) > 0)
    && (forall a, b, c :: cmp(a, b) <= 0 && cmp(b, c) <= 0 ==> cmp(a, c) <= 0)
  }

  /** Every element is "not greater" than every element after it. */
  ghost predicate SortedBy<T>(s: seq<T>, cmp: (T, T) -> int)
  {
    forall i, j :: 0 <= i < j < |s| ==> cmp(s[i], s[j]) <= 0
  }

  /**
    The elements `p` selects all compare as equal to one another, so a
    stable sort must keep them in their input order.
   */
  ghost predicate Tied<T(!new)>(p: T -> bool, cmp: (T, T) -> int)
  {
    forall a, b :: p(a) && p(b) ==> cmp(a, b) <= 0
  }

  /** Insert `x` in front of the first element of `s` it does not exceed. */
  function Insert<T>(x: T, s: seq<T>, cmp: (T, T) -> int): (r: seq<T>)
    ensures |r| == |s| + 1
    ensures multiset(r) == multiset(s) + multiset{x}
  {
    if |s| == 0 || cmp(x, s[0]) <= 0 then [x] + s
    else
      assert s == [s[0]] + s[1..];
      [s[0]] + Insert(x, s[1..], cmp)
  }

  /** `[...s].sort(cmp)`: the result is a permutation of the input. */
  function Sort<T>(s: seq<T>, cmp: (T, T) -> int): (r: seq<T>)
    ensures |r| == |s|
    ensures multiset(r) == multiset(s)
  {
    if |s| == 0 then []
    else
      assert s == [s[0]] + s[1..];
      Insert(s[0], Sort(s[1..], cmp), cmp)
  }

  /** The sort keeps exactly the elements it was given. */
  lemma SortMembers<T>(s: seq<T>, cmp: (T, T) -> int)
    ensures forall x :: x in Sort(s, cmp) <==> x in s
  {
    var r := Sort(s, cmp);
    assert forall x :: x in r <==> x in multiset(r);
    assert forall x :: x in s <==> x in multiset(s);
  }

  /** Membership view of `Insert`: it adds `x` and loses nothing. */
  lemma {:induction false} InsertMembers<T>(x: T, s: seq<T>, cmp: (T, T) -> int)
    ensures forall y :: y in Insert(x, s, cmp) <==> y == x || y in s
    decreases |s|
  {
    if |s| > 0 && cmp(x, s[0]) > 0 {
      InsertMembers(x, s[1..], cmp);
      assert s == [s[0]] + s[1..];
    }
  }

  lemma SortedCons<T>(x: T, s: seq<T>, cmp: (T, T) -> int)
    requires SortedBy(s, cmp)
    requires forall y :: y in s ==> cmp(x, y) <= 0
    ensures SortedBy([x] + s, cmp)
  {
    var r := [x] + s;
    forall i, j | 0 <= i < j < |r|
      ensures cmp(r[i], r[j]) <= 0
    {
      assert r[j] == s[j - 1];
      if i > 0 {
        assert r[i] == s[i - 1];
      }
    }
  }

  lemma {:induction false} InsertSorted<T(!new)>(x: T, s: seq<T>, cmp: (T, T) -> int)
    requires ConsistentComparator(cmp)
    requires SortedBy(s, cmp)
    ensures SortedBy(Insert(x, s, cmp), cmp)
    decreases |s|
  {
    if |s| == 0 || cmp(x, s[0]) <= 0 {
      forall y | y in s
        ensures cmp(x, y) <= 0
      {
        var k :| 0 <= k < |s| && s[k] == y;
        if k > 0 {
          assert cmp(s[0], s[k]) <= 0;
        }
      }
      SortedCons(x, s, cmp);
    } else {
      assert cmp(s[0], x) < 0;
      var t := Insert(x, s[1..], cmp);
      InsertSorted(x, s[1..], cmp);
      InsertMembers(x, s[1..], cmp);
      forall y | y in t
        ensures cmp(s[0], y) <= 0
      {
        if y != x {
          var k :| 0 <= k < |s[1..]| && s[1..][k] == y;
          assert s[k + 1] == y;
        }
      }
      SortedCons(s[0], t, cmp);
    }
  }

  /** The sort orders its output by the comparator. */
  lemma {:induction false} SortSorted<T(!new)>(s: seq<T>, cmp: (T, T) -> int)
    requires ConsistentComparator(cmp)
    ensures SortedBy(Sort(s, cmp), cmp)
    decreases |s|
  {
    if |s| > 0 {
      SortSorted(s[1..], cmp);
      InsertSorted(s[0], Sort(s[1..], cmp), cmp);
    }
  }

  lemma {:induction false} FilterCons<T(!new)>(x: T, s: seq<T>, p: T -> bool)
    ensures Filter([x] + s, p) == (if p(x) then [x] else []) + Filter(s, p)
  {
    assert ([x] + s)[0] == x && ([x] + s)[1..] == s;
  }

  /** Filtering a sequence that starts with an element passed over by the insertion. */
  lemma InsertStepFilter<T(!new)>(x: T, s: seq<T>, cmp: (T, T) -> int, p: T -> bool)
    requires |s| > 0 && cmp(x, s[0]) > 0
    ensures Filter(Insert(x, s, cmp), p) == (if p(s[0]) then [s[0]] else []) + Filter(Insert(x, s[1..], cmp), p)
  {
    assert Insert(x, s, cmp) == [s[0]] + Insert(x, s[1..], cmp);
    FilterCons(s[0], Insert(x, s[1..], cmp), p);
  }

  /** Two kept-or-dropped singletons commute when at most one of them is kept. */
  lemma SwapSingletons<T>(x: T, y: T, rest: seq<T>, p: T -> bool)
    requires !(p(x) && p(y))
    ensures (if p(y) then [y] else []) + ((if p(x) then [x] else []) + rest)
         == (if p(x) then [x] else []) + ((if p(y) then [y] else []) + rest)
  {
  }

  lemma {:induction false} InsertStable<T(!new)>(x: T, s: seq<T>, cmp: (T, T) -> int, p: T -> bool)
    requires Tied(p, cmp)
    ensures Filter(Insert(x, s, cmp), p) == Filter([x] + s, p)
    decreases |s|
  {
    if |s| > 0 && cmp(x, s[0]) > 0 {
      var rest := Filter(s[1..], p);
      InsertStepFilter(x, s, cmp, p);
      InsertStable(x, s[1..], cmp, p);
      FilterCons(x, s[1..], p);
      FilterCons(x, s, p);
      FilterConsTail(s, p);
      assert !(p(x) && p(s[0]));
      SwapSingletons(x, s[0], rest, p);
    }
  }

  lemma FilterConsTail<T(!new)>(s: seq<T>, p: T -> bool)
    requires |s| > 0
    ensures Filter(s, p) == (if p(s[0]) then [s[0]] else []) + Filter(s[1..], p)
  {
  }

  /** Stability: elements that compare equal keep their input order. */
  lemma {:induction false} SortStable<T(!new)>(s: seq<T>, cmp: (T, T) -> int, p: T -> bool)
    requires Tied(p, cmp)
    ensures Filter(Sort(s, cmp), p) == Filter(s, p)
    decreases |s|
  {
    if |s| > 0 {
      SortStable(s[1..], cmp, p);
      InsertStable(s[0], Sort(s[1..], cmp), cmp, p);
      FilterCons(s[0], Sort(s[1..], cmp), p);
      assert s == [s[0]] + s[1..];
      FilterCons(s[0], s[1..], p);
    }
  }
}

=== FILE: strings.dfy ===
/**
  Text primitives the shopping app leans on: ASCII lower-casing (standing in
  for `String.prototype.toLowerCase`), whitespace trimming (`trim`) and the
  substring test (`includes`).
 */
module Strings {

  /** Upper-case ASCII letters become lower-case; every other character is kept. */
  function LowerChar(c: char): (r: char)
    ensures 'A' <= c <= 'Z' ==> r as int == c as int + 32
    ensures !('A' <= c <= 'Z') ==> r == c
    ensures !('A' <= r <= 'Z')
  {
    if 'A' <= c <= 'Z' then (c as int + 32) as char else c
  }

  /** ASCII lower-casing of a whole string, character by character. */
  function Lower(s: string): (r: string)
    ensures |r| == |s|
    ensures forall i :: 0 <= i < |s| ==> r[i] == LowerChar(s[i])
  {
    if |s| == 0 then [] else [LowerChar(s[0])] + Lower(s[1..])
  }

  /** Lower-casing commutes with slicing. */
  lemma LowerSlice(s: string, i: int, j: int)
    requires 0 <= i <= j <= |s|
    ensures Lower(s)[i..j] == Lower(s[i..j])
  {
  }

  /** Lower-casing twice is lower-casing once. */
  lemma LowerIdempotent(s: string)
    ensures Lower(Lower(s)) == Lower(s)
  {
  }

  /**
    The characters ECMAScript's `trim` removes: the WhiteSpace and
    LineTerminator productions (sections 12.2 and 12.3 of ECMA-262),
    with the Unicode `Zs` category spelled out.
   */
  predicate IsWhitespace(c: char)
  {
    var n := c as int;
    n == 0x09 || n == 0x0A || n == 0x0B || n == 0x0C || n == 0x0D || n == 0x20
    || n == 0xA0 || n == 0x1680 || (0x2000 <= n <= 0x200A) || n == 0x2028 || n == 0x2029
    || n == 0x202F || n == 0x205F || n == 0x3000 || n == 0xFEFF
  }

  function TrimStart(s: string): (r: string)
    ensures |r| <= |s| && r == s[|s| - |r|..]
    ensures |r| > 0 ==> !IsWhitespace(r[0])
    ensures forall i :: 0 <= i < |s| - |r| ==> IsWhitespace(s[i])
  {
    if |s| > 0 && IsWhitespace(s[0]) then TrimStart(s[1..]) else s
  }

  function TrimEnd(s: string): (r: string)
    ensures |r| <= |s| && r == s[..|r|]
    ensures |r| > 0 ==> !IsWhitespace(r[|r| - 1])
    ensures forall i :: |r| <= i < |s| ==> IsWhitespace(s[i])
  {
    if |s| > 0 && IsWhitespace(s[|s| - 1]) then TrimEnd(s[..|s| - 1]) else s
  }

  /** `s.trim()`: leading and trailing whitespace removed, the middle untouched. */
  function Trim(s: string): (r: string)
    ensures |r| > 0 ==> !IsWhitespace(r[0]) && !IsWhitespace(r[|r| - 1])
    ensures exists a, b :: 0 <= a <= b <= |s| && r == s[a..b]
                           && (forall i :: 0 <= i < a ==> IsWhitespace(s[i]))
                           && (forall i :: b <= i < |s| ==> IsWhitespace(s[i]))
    ensures exists k :: OccursAt(s, r, k)
  {
    var t := TrimStart(s);
    var r := TrimEnd(t);
    TrimBounds(s, t, r);
    r
  }

  /** The two halves of `Trim`: the result is the slice of `s` between two whitespace-only margins. */
  lemma TrimBounds(s: string, t: string, r: string)
    requires |t| <= |s| && t == s[|s| - |t|..] && forall i :: 0 <= i < |s| - |t| ==> IsWhitespace(s[i])
    requires |r| <= |t| && r == t[..|r|] && forall i :: |r| <= i < |t| ==> IsWhitespace(t[i])
    ensures var a := |s| - |t|;
            && 0 <= a <= a + |r| <= |s| && r == s[a..a + |r|]
            && (forall i :: 0 <= i < a ==> IsWhitespace(s[i]))
            && (forall i :: a + |r| <= i < |s| ==> IsWhitespace(s[i]))
            && OccursAt(s, r, a)
  {
    var a := |s| - |t|;
    var b := a + |r|;
    assert forall k :: 0 <= k < |r| ==> r[k] == t[k] == s[a + k];
    assert r == s[a..b];
    forall i | b <= i < |s|
      ensures IsWhitespace(s[i])
    {
      assert s[i] == t[i - a];
    }
  }

  /** `s.trim() === ''`. */
  predicate IsBlank(s: string)
  {
    Trim(s) == []
  }

  /** A string trims to nothing exactly when every character is whitespace. */
  lemma BlankIffAllWhitespace(s: string)
    ensures IsBlank(s) <==> forall i :: 0 <= i < |s| ==> IsWhitespace(s[i])
  {
    var t := TrimStart(s);
    if IsBlank(s) {
      assert TrimEnd(t) == [];
      assert |t| == 0;
    } else {
      var r := Trim(s);
      assert |r| > 0 && !IsWhitespace(r[0]);
      var k :| OccursAt(s, r, k);
      assert s[k] == r[0];
    }
  }

  /** `p` is a prefix of `s`. */
  predicate IsPrefix(p: string, s: string)
  {
    |p| <= |s| && s[..|p|] == p
  }

  /** `pat` occurs in `text` starting at position `i`. */
  ghost predicate OccursAt(text: string, pat: string, i: int)
  {
    0 <= i && i + |pat| <= |text| && text[i..i + |pat|] == pat
  }

  /** `text.includes(pat)`, scanning start positions left to right. */
  function Contains(text: string, pat: string): (r: bool)
    ensures |pat| == 0 ==> r
    ensures r ==> |pat| <= |text|
    decreases |text|
  {
    IsPrefix(pat, text) || (|text| > 0 && Contains(text[1..], pat))
  }

  /** The scan finds `pat` exactly when it occurs at some position. */
  lemma {:induction false} ContainsIffOccurs(text: string, pat: string)
    ensures Contains(text, pat) <==> exists i :: OccursAt(text, pat, i)
    decreases |text|
  {
    if IsPrefix(pat, text) {
      assert OccursAt(text, pat, 0);
    } else if |text| > 0 {
      ContainsIffOccurs(text[1..], pat);
      if Contains(text[1..], pat) {
        var i :| OccursAt(text[1..], pat, i);
        assert text[i + 1..i + 1 + |pat|] == text[1..][i..i + |pat|];
        assert OccursAt(text, pat, i + 1);
      } else {
        forall i | OccursAt(text, pat, i)
          ensures false
        {
          assert i != 0;
          assert text[1..][i - 1..i - 1 + |pat|] == text[i..i + |pat|];
          assert OccursAt(text[1..], pat, i - 1);
        }
      }
    }
  }

  /** Every string contains itself. */
  lemma ContainsSelf(s: string)
    ensures Contains(s, s)
  {
    assert IsPrefix(s, s);
  }

  /** Containment is transitive: an occurrence of an occurrence is an occurrence. */
  lemma ContainsTransitive(a: string, b: string, c: string)
    requires Contains(a, b) && Contains(b, c)
    ensures Contains(a, c)
  {
    ContainsIffOccurs(a, b);
    ContainsIffOccurs(b, c);
    var i :| OccursAt(a, b, i);
    var j :| OccursAt(b, c, j);
    assert forall k :: 0 <= k < |c| ==> c[k] == b[j + k] == a[i + j + k];
    assert OccursAt(a, c, i + j);
    ContainsIffOccurs(a, c);
  }

  /** Every character of a contained string occurs in the containing one. */
  lemma ContainsChars(text: string, pat: string, c: char)
    requires Contains(text, pat) && c in pat
    ensures c in text
  {
    ContainsIffOccurs(text, pat);
    var i :| OccursAt(text, pat, i);
    var k :| 0 <= k < |pat| && pat[k] == c;
    assert text[i + k] == text[i..i + |pat|][k];
  }

  /** Lower-casing both sides preserves an occurrence. */
  lemma ContainsLower(text: string, pat: string)
    requires Contains(text, pat)
    ensures Contains(Lower(text), Lower(pat))
  {
    ContainsIffOccurs(text, pat);
    var i :| OccursAt(text, pat, i);
    LowerSlice(text, i, i + |pat|);
    assert OccursAt(Lower(text), Lower(pat), i);
    ContainsIffOccurs(Lower(text), Lower(pat));
  }
}

=== FILE: types.dfy ===
/**
  The records of the shopping app: products with per-store offers, shopping
  lists of items, and the user with favourites and a cart. TypeScript's
  optional properties (`x?: T`) become `Option<T>`; dates become integer
  timestamps; prices and quantities become integers (cents, hundredths).
 */
module Types {

  datatype Option<T> = None | Some(value: T) {
    /** `x ?? d` / `x || d` for a value that is never falsy when present. */
    function GetOr(d: T): (r: T)
      ensures Some? ==> r == value
      ensures None? ==> r == d
    {
      match this
      case Some(v) => v
      case None => d
    }
  }

  datatype Store = Woolworths | Coles | Aldi | IGA

  /** The four stores, in the order the app lists them. */
  const AllStores: seq<Store> := [Woolworths, Coles, Aldi, IGA]

  datatype Unit = Each | Kg | G | L | Ml | Pack

  /** One store's offer for a product. */
  datatype Offer = Offer(price: int, unit: Unit, inStock: bool)

  /**
    A catalog product. `stores` is partial: a store with no entry does not
    sell the product.
   */
  datatype Product = Product(
    id: string,
    name: string,
    category: string,
    brands: Option<seq<string>>,
    stores: map<Store, Offer>,
    image: Option<string>,
    tags: Option<seq<string>>)

  datatype ShoppingItem = ShoppingItem(
    id: string,
    productId: string,
    quantity: int,
    unit: Unit,
    purchased: bool,
    notes: Option<string>)

  datatype ShoppingList = ShoppingList(
    id: string,
    name: string,
    store: Option<Store>,
    items: seq<ShoppingItem>,
    createdAt: int,
    updatedAt: int,
    shared: bool,
    sharedWith: Option<seq<string>>)

  datatype User = User(
    id: string,
    name: string,
    email: string,
    favorites: seq<string>,
    preferredStore: Option<Store>,
    cart: Option<seq<ShoppingItem>>)

  /** `product.stores[store] && product.stores[store].inStock`. */
  predicate InStockAt(p: Product, s: Store)
  {
    s in p.stores && p.stores[s].inStock
  }

  /**
    `Partial<Product>` as passed to `updateProduct`: `None` leaves a field
    alone. For the optional fields, `Some(None)` is an explicit `undefined`,
    which the object spread copies over the old value.
   */
  datatype ProductPatch = ProductPatch(
    id: Option<string>,
    name: Option<string>,
    category: Option<string>,
    brands: Option<Option<seq<string>>>,
    stores: Option<map<Store, Offer>>,
    image: Option<Option<string>>,
    tags: Option<Option<seq<string>>>)

  /** `{ ...product, ...updates }`. */
  function ApplyProductPatch(p: Product, u: ProductPatch): (r: Product)
    ensures (u.id.Some? ==> r.id == u.id.value) && (u.id.None? ==> r.id == p.id)
    ensures (u.name.Some? ==> r.name == u.name.value) && (u.name.None? ==> r.name == p.name)
    ensures (u.category.Some? ==> r.category == u.category.value) && (u.category.None? ==> r.category == p.category)
    ensures (u.brands.Some? ==> r.brands == u.brands.value) && (u.brands.None? ==> r.brands == p.brands)
    ensures (u.stores.Some? ==> r.stores == u.stores.value) && (u.stores.None? ==> r.stores == p.stores)
    ensures (u.image.Some? ==> r.image == u.image.value) && (u.image.None? ==> r.image == p.image)
    ensures (u.tags.Some? ==> r.tags == u.tags.value) && (u.tags.None? ==> r.tags == p.tags)
  {
    Product(
      u.id.GetOr(p.id), u.name.GetOr(p.name), u.category.GetOr(p.category),
      u.brands.GetOr(p.brands), u.stores.GetOr(p.stores), u.image.GetOr(p.image),
      u.tags.GetOr(p.tags))
  }

  /** `Partial<ShoppingList>` as passed to `updateShoppingList`. */
  datatype ListPatch = ListPatch(
    id: Option<string>,
    name: Option<string>,
    store: Option<Option<Store>>,
    items: Option<seq<ShoppingItem>>,
    createdAt: Option<int>,
    shared: Option<bool>,
    sharedWith: Option<Option<seq<string>>>)

  /**
    `{ ...list, ...updates, updatedAt: now }`: the timestamp is written last,
    so it wins over the patch.
   */
  function ApplyListPatch(l: ShoppingList, u: ListPatch, now: int): (r: ShoppingList)
    ensures r.updatedAt == now
    ensures (u.id.Some? ==> r.id == u.id.value) && (u.id.None? ==> r.id == l.id)
    ensures (u.name.Some? ==> r.name == u.name.value) && (u.name.None? ==> r.name == l.name)
    ensures (u.store.Some? ==> r.store == u.store.value) && (u.store.None? ==> r.store == l.store)
    ensures (u.items.Some? ==> r.items == u.items.value) && (u.items.None? ==> r.items == l.items)
    ensures (u.createdAt.Some? ==> r.createdAt == u.createdAt.value) && (u.createdAt.None? ==> r.createdAt == l.createdAt)
    ensures (u.shared.Some? ==> r.shared == u.shared.value) && (u.shared.None? ==> r.shared == l.shared)
    ensures (u.sharedWith.Some? ==> r.sharedWith == u.sharedWith.value) && (u.sharedWith.None? ==> r.sharedWith == l.sharedWith)
  {
    ShoppingList(
      u.id.GetOr(l.id), u.name.GetOr(l.name), u.store.GetOr(l.store), u.items.GetOr(l.items),
      u.createdAt.GetOr(l.createdAt), now, u.shared.GetOr(l.shared), u.sharedWith.GetOr(l.sharedWith))
  }

  /** `Partial<ShoppingItem>` as passed to `updateItemInList` and `updateCartItem`. */
  datatype ItemPatch = ItemPatch(
    id: Option<string>,
    productId: Option<string>,
    quantity: Option<int>,
    unit: Option<Unit>,
    purchased: Option<bool>,
    notes: Option<Option<string>>)

  /** `{ ...item, ...updates }`. */
  function ApplyItemPatch(i: ShoppingItem, u: ItemPatch): (r: ShoppingItem)
    ensures (u.id.Some? ==> r.id == u.id.value) && (u.id.None? ==> r.id == i.id)
    ensures (u.productId.Some? ==> r.productId == u.productId.value) && (u.productId.None? ==> r.productId == i.productId)
    ensures (u.quantity.Some? ==> r.quantity == u.quantity.value) && (u.quantity.None? ==> r.quantity == i.quantity)
    ensures (u.unit.Some? ==> r.unit == u.unit.value) && (u.unit.None? ==> r.unit == i.unit)
    ensures (u.purchased.Some? ==> r.purchased == u.purchased.value) && (u.purchased.None? ==> r.purchased == i.purchased)
    ensures (u.notes.Some? ==> r.notes == u.notes.value) && (u.notes.None? ==> r.notes == i.notes)
  {
    ShoppingItem(
      u.id.GetOr(i.id), u.productId.GetOr(i.productId), u.quantity.GetOr(i.quantity),
      u.unit.GetOr(i.unit), u.purchased.GetOr(i.purchased), u.notes.GetOr(i.notes))
  }

  /** Spreading the same update twice is spreading it once; an empty update changes nothing. */
  lemma ProductPatchIdempotent(p: Product, u: ProductPatch)
    ensures ApplyProductPatch(ApplyProductPatch(p, u), u) == ApplyProductPatch(p, u)
    ensures ApplyProductPatch(p, ProductPatch(None, None, None, None, None, None, None)) == p
  {
  }

  /** Re-applying a list update only moves the timestamp. */
  lemma ListPatchIdempotent(l: ShoppingList, u: ListPatch, now1: int, now2: int)
    ensures ApplyListPatch(ApplyListPatch(l, u, now1), u, now2) == ApplyListPatch(l, u, now2)
    ensures ApplyListPatch(l, ListPatch(None, None, None, None, None, None, None), now1) == l.(updatedAt := now1)
  {
  }

  lemma ItemPatchIdempotent(i: ShoppingItem, u: ItemPatch)
    ensures ApplyItemPatch(ApplyItemPatch(i, u), u) == ApplyItemPatch(i, u)
    ensures ApplyItemPatch(i, ItemPatch(None, None, None, None, None, None)) == i
  {
  }
}
